=== FILE: README.md ===
# Confidential fundraising: ledger and client decision rules

This project models two related pieces of a fundraising dApp.

**The FundraisingPlatform contract** is modelled as a sequential state machine. Campaigns are created with a title, description, target and duration. The creator may end a campaign, and the Active → Ended step is one-way. Donations attach ether and carry a sealed (encrypted) amount. The contract keeps:
- a public balance per campaign;
- a count of distinct donors;
- an "initialized" flag;
- per-donor and grand encrypted totals, readable only by the donor or the creator.

Once a campaign has ended, the creator may withdraw its whole balance, exactly once.

The Solidity source is not part of this model. Its behaviour is taken from the assertions of `test/FundraisingPlatform.ts`. The "## Model" table below cites, for each ledger member, the test lines it reproduces, except `Ledger.GetCampaignBalance`, which is known only from its ABI signature. The revert strings are the ones the tests expect.

**The client** is modelled as pure decision functions from the React pages and the contract hook:
- status classification and the "active" filter of the campaign list;
- the donate and close gates and the input checks of the details page;
- the step validator and step counter of the creation wizard;
- the statistics counting of the home page;
- the wei-exact minimum check, error translation and fallbacks of `useContract`.

A last module, `Views`, connects the two. It shows what the client decides about the ledger states it reads: the active filter against the contract's active list, the progress bar against `getProgressPercentage`, the two minimums, and the id read back after creation.

Conventions:
- Amounts are wei naturals and deadlines are seconds.
- The page clock `now` is milliseconds and is a parameter.
- `parseInt`/`parseFloat` results arrive already parsed, as `Parsed<T>` (a value or NaN).
- Every comparison with NaN is false, as in JavaScript.

Files:
- `results.dfy`: `Option` and `Result`.
- `text.dfy`: `trim`, ASCII `toLowerCase`, `includes`.
- `ledger.dfy`: the contract, with the invariant `Valid`: every campaign is well formed, and the contract holds exactly what it owes to campaigns not yet withdrawn.
- `ledger_runs.dfy`: arbitrary transaction sequences and what holds across them.
- `campaign_status.dfy`: the campaign list page.
- `campaign_details.dfy`: the details page.
- `create_wizard.dfy`: the creation page.
- `home_stats.dfy`: the home page statistics.
- `contract_client.dfy`: the contract hook.
- `views.dfy`: the links between client and ledger.

Two modelling decisions shape the ledger:
- There is one error per revert string the tests assert, such as "Only campaign creator" or "Only creator can view". `Ledger.Reason` maps each error to its string.
- Each campaign stores a donor counter. The invariant `Ledger.Valid` ties it to the number of distinct donors.

## Model

| member | source | states |
|---|---|---|
| Ledger.Reason | test/FundraisingPlatform.ts:41-343 | Every error carries the revert string the tests expect, except a rejected proof and a failed transfer, which have none. |
| Ledger.ReasonsDistinct | test/FundraisingPlatform.ts:41-343 | Two errors with the same known revert string are the same error, so the string identifies the failed check. |
| Ledger.Valid | test/FundraisingPlatform.ts:310-321 | In a valid state the contract holds at least what any single campaign not yet withdrawn is owed, so the creator's payout of the whole balance is covered. |
| Ledger.CreateCampaign | test/FundraisingPlatform.ts:21-60 | Succeeds iff title and description are non-empty, the target is positive and the duration is positive. Otherwise it fails with title, description, target or duration error, checked in that order. On success, the new id is the previous count, earlier campaigns are untouched, and the new campaign stores the caller as creator, the given terms, Active, no funds and deadline now + duration. A CampaignCreated event carries the id. The invariant is kept. |
| Ledger.GetCampaignBasicInfo | test/FundraisingPlatform.ts:29-36 | Succeeds iff the id was assigned, otherwise "Campaign does not exist". Returns the stored creator, title, description, target, deadline, active flag and public balance. |
| Ledger.GetAllCampaigns | test/FundraisingPlatform.ts:84-96 | Lists exactly the ids 0 … n-1, position k holding id k, one per created campaign. |
| Ledger.GetTotalCampaigns | test/FundraisingPlatform.ts:79-82 | The total equals the length of the full listing. |
| Ledger.ActiveIdsBelow | test/FundraisingPlatform.ts:73-77 | Below n, an id is listed iff its stored flag is Active. The list is strictly increasing. |
| Ledger.GetActiveCampaigns | test/FundraisingPlatform.ts:73-77 | An id is listed iff it was assigned and is stored Active; deadline and target are not consulted. Ids appear in increasing order. |
| Ledger.EndCampaign | test/FundraisingPlatform.ts:98-115 | Succeeds iff the id exists, the caller is the creator and the campaign is Active. Otherwise it fails with "Campaign does not exist", "Only campaign creator" or "Campaign already ended", in that order. On success only the active flag of that campaign changes, and the invariant is kept. |
| Ledger.Credit | test/FundraisingPlatform.ts:173-221 | One accepted donation grows the balance by the attached value and adds the donor to the donor keys. It counts a first-time donor once and a repeat donor not at all. It appends the sealed amount to the donor's and the grand encrypted totals, leaving other donors and the campaign's terms unchanged. |
| Ledger.CreditKeepsValid | test/FundraisingPlatform.ts:197-210 | After a donation, the donor count still equals the number of distinct donors, and "initialized" still holds exactly when someone has donated. |
| Ledger.Donate | test/FundraisingPlatform.ts:135-171 | Succeeds iff the campaign exists and is Active, the value is at least 10^15 wei, and the proof is accepted. Failures are checked in that order: "Campaign does not exist", "Campaign not active", "Minimum ETH for gas required", proof rejected. Exactly 10^15 is accepted. On success only that campaign is credited, the contract balance grows by the value, and a DonationMade event is emitted. The invariant is kept. |
| Ledger.GetDonorsCount | test/FundraisingPlatform.ts:173-210 | Fails only for an unknown id. In a valid state it returns the number of distinct donors. |
| Ledger.IsCampaignInitialized | test/FundraisingPlatform.ts:235-245 | Fails only for an unknown id. In a valid state it is true iff some donation was accepted. |
| Ledger.GetDonationAmount | test/FundraisingPlatform.ts:257-274 | Succeeds iff the campaign exists and the caller is the donor or the creator, otherwise "Not authorized". Returns the zero handle for a donor who never gave, else the donor's non-empty encrypted total. |
| Ledger.GetEncryptedTotalRaised | test/FundraisingPlatform.ts:276-289 | Succeeds iff the campaign exists and the caller is its creator, otherwise "Only creator can view". The handle is zero iff no donation was accepted. |
| Ledger.GetCampaignBalance | frontend/src/hooks/useContract.tsx:24 | Readable by anyone for an existing id, and equal to the campaign's public balance. An unknown id fails with "Campaign does not exist". |
| Ledger.Percentage | test/FundraisingPlatform.ts:370-387 | At most 100. Equal to 100 iff the balance reached the target. 0 for an empty balance. It is the floor of min(balance, target) · 100 / target. |
| Ledger.GetProgressPercentage | test/FundraisingPlatform.ts:223-233 | Fails only for an unknown id. Otherwise it is `Percentage` of the stored balance and target: the floor of min(balance, target) · 100 / target, so half the target gives 50. It is 0 without donations, never above 100, and 100 exactly when the target is reached. |
| Ledger.WithdrawFunds | test/FundraisingPlatform.ts:310-344 | Fails with "Campaign does not exist", "Only campaign creator", "Campaign still active" or "Funds already withdrawn", in that order, and then with a failed transfer if the creator's account refuses the payment. In a valid state it succeeds iff none applies. A failed transfer leaves nothing changed, the withdrawn flag included. On success it sets only the withdrawn flag, pays the campaign's whole balance to the creator, and the contract balance drops by exactly that. The invariant is kept. |
| LedgerRuns.Step | test/FundraisingPlatform.ts:151-171 | A committed transaction keeps the invariant and conserves ether (balance + paid out = old balance + received). It never removes or alters a campaign's terms and only appends ids. |
| LedgerRuns.StepBookkeeping | test/FundraisingPlatform.ts:173-221 | For each campaign, one committed transaction changes the balance by exactly its donated value, the donor set by exactly its donor, and the withdrawn flag by exactly its withdrawal. |
| LedgerRuns.RunKeepsValid | test/FundraisingPlatform.ts:197-221 | Every state reachable from a valid one by any transaction sequence is valid. |
| LedgerRuns.RunConserves | test/FundraisingPlatform.ts:310-321 | Over any sequence, final balance + everything paid out = initial balance + everything donated. |
| LedgerRuns.RunFunding | test/FundraisingPlatform.ts:173-213 | Over any sequence, a campaign's balance grows by exactly the sum of its accepted donations, and its donor set by exactly their senders. After a withdrawal this relies on the withdrawal leaving the recorded balance in place (see "## Left out"). |
| LedgerRuns.RunWithdrawals | test/FundraisingPlatform.ts:337-344 | The number of committed withdrawals of a campaign equals the change of its withdrawn flag. |
| LedgerRuns.SingleWithdrawal | test/FundraisingPlatform.ts:337-344 | Whatever is sent or retried, funds leave a campaign at most once, and never again once withdrawn. |
| LedgerRuns.RunExtends | test/FundraisingPlatform.ts:98-115 | Over any sequence, no campaign is lost and its terms never change. Ended never returns to Active, a withdrawal is never undone, and donor sets only grow. Recorded balances only grow too; past a withdrawal this relies on the withdrawal leaving the recorded balance in place. |
| LedgerRuns.RunOpensInOrder | test/FundraisingPlatform.ts:84-96 | Committed creations hand out consecutive ids from the current count, in order. |
| LedgerRuns.GenesisListing | test/FundraisingPlatform.ts:348-356 | From a fresh deployment, the full listing is exactly the created ids in creation order (empty before any creation). The total is their number, and the contract holds what was donated minus what was paid. |
| LedgerRuns.GenesisCampaign | test/FundraisingPlatform.ts:173-245 | From a fresh deployment, each campaign's recorded balance is the sum of its donations, also after a withdrawal, which leaves the recorded balance in place. Its donor count is the number of distinct donors. It is initialized iff someone donated. It paid out at most once. |
| LedgerRuns.EndedIsFinal | test/FundraisingPlatform.ts:247-255 | Once ended, a campaign stays ended, no donation to it commits, and its balance stays put. |
| CampaignStatus.StatusOf | frontend/src/pages/CampaignsPage.tsx:118-130 | Ended iff not active. Expired iff active and now > deadline·1000. Target Reached iff active, not expired and current ≥ target. Active otherwise. Exactly one status holds. |
| CampaignStatus.EndedIgnoresClockAndAmounts | frontend/src/pages/CampaignsPage.tsx:119 | An inactive campaign is Ended for every clock reading and every pair of amounts. |
| CampaignStatus.LabelInjective | frontend/src/pages/CampaignsPage.tsx:118-130 | The four chip texts `Label` gives the statuses ("Ended", "Expired", "Target Reached", "Active") are distinct, so the text determines the status. |
| CampaignStatus.KeptAsActive | frontend/src/pages/CampaignsPage.tsx:68-83 | The filter callback keeps a campaign iff it is active, its deadline has not passed and its target is not reached. |
| CampaignStatus.KeptAsActiveIffActive | frontend/src/pages/CampaignsPage.tsx:67-83 | The filter callback keeps a campaign iff the classifier calls it Active. |
| CampaignStatus.KeepActive | frontend/src/pages/CampaignsPage.tsx:67-83 | The filtered list is an order-preserving subsequence of the input. Every Active entry is kept as often as it occurs in the input, and no other entry is kept. |
| CampaignStatus.Visible | frontend/src/pages/CampaignsPage.tsx:64-86 | Any filter but "active" returns the loaded list unchanged. "active" returns every Active entry, with its multiplicity and in order, and nothing else. |
| CampaignStatus.StatusColor | frontend/src/pages/CampaignsPage.tsx:132-145 | Always one of success, warning, error, default. It is default exactly when the status is none of Active, Target Reached and Expired, so every unknown text gets default. |
| CampaignStatus.ColorOfStatus | frontend/src/pages/CampaignsPage.tsx:132-145 | Active → success, Target Reached → warning, Expired → error, Ended → default. |
| CampaignStatus.Progress | frontend/src/pages/CampaignsPage.tsx:112-116 | 0 for a non-positive target. Never above 100. Non-negative for non-negative amounts. Equal to 100 iff the amount reached a positive target. |
| CampaignStatus.ProgressOf | frontend/src/pages/CampaignsPage.tsx:112-116 | The bar of a listing lies in [0, 100] and, for a positive target, is full iff the target is reached. A zero target gives 0. |
| CampaignDetails.Expired | frontend/src/pages/CampaignDetailsPage.tsx:174-177 | False without a loaded campaign. For a loaded one it is the list page's expiry test: now > deadline·1000. |
| CampaignDetails.TargetReached | frontend/src/pages/CampaignDetailsPage.tsx:193-198 | False without a loaded campaign. For a loaded one it is the list page's target test: current ≥ target. |
| CampaignDetails.CanDonate | frontend/src/pages/CampaignDetailsPage.tsx:179-191 | The button is offered iff an account is connected, the campaign is loaded and active, not expired, and below its target. |
| CampaignDetails.CanCloseCampaign | frontend/src/pages/CampaignDetailsPage.tsx:200-213 | The button is offered iff the donate conditions hold and the account equals the creator ignoring case. |
| CampaignDetails.CloseImpliesDonate | frontend/src/pages/CampaignDetailsPage.tsx:200-213 | Whoever is offered closing is also offered donating. |
| CampaignDetails.DetailStatus | frontend/src/pages/CampaignDetailsPage.tsx:215-222 | "Unknown" exactly when no campaign is loaded. |
| CampaignDetails.DetailStatusAgreesWithList | frontend/src/pages/CampaignDetailsPage.tsx:215-222 | For a loaded campaign, the details page shows the same status as the list page (Ended > Expired > Target Reached > Active). |
| CampaignDetails.ActiveIffCanDonate | frontend/src/pages/CampaignDetailsPage.tsx:179-222 | With an account connected, the status reads "Active" iff donating is offered. |
| CampaignDetails.DonateGuard | frontend/src/pages/CampaignDetailsPage.tsx:92-106 | The donation proceeds iff an account, a campaign and an amount text are present and the amount is NaN or ≥ 0.001. Otherwise the message is chosen in order: connect-and-enter, amount ≤ 0, amount < 0.001. |
| CampaignDetails.UnreadableAmountPasses | frontend/src/pages/CampaignDetailsPage.tsx:98-106 | An amount `parseFloat` cannot read passes both numeric checks. |
| CampaignDetails.CloseGuard | frontend/src/pages/CampaignDetailsPage.tsx:132-141 | Closing proceeds iff a campaign is loaded, an account is connected and it equals the creator ignoring case. Without a campaign or an account the message is "Please connect wallet". With both but a creator mismatch it is "Only campaign creator can close the campaign". |
| CampaignDetails.CloseButtonPassesGuard | frontend/src/pages/CampaignDetailsPage.tsx:132-141 | Whenever the close button is offered, the close handler goes ahead. |
| CampaignDetails.LoadGuard | frontend/src/pages/CampaignDetailsPage.tsx:47-67 | Without an id nothing happens. A NaN or negative id is invalid. Otherwise the campaign is loaded iff its id is among the listed ids, and the loaded id is the parsed one. |
| CreateWizard.ValidateStep | frontend/src/pages/CreateCampaignPage.tsx:51-83 | Step 0 fails with "required" on a blank title, else with "too short" iff the untrimmed length is < 5. Step 1 checks in order: blank description, length < 20, missing or non-positive target, missing or non-positive duration; the first failure gives the message. Any other step passes. |
| CreateWizard.PaddedTitlePasses | frontend/src/pages/CreateCampaignPage.tsx:53-61 | A two-letter title padded with spaces passes step 0: padding counts toward the length. |
| CreateWizard.UnreadableTargetPasses | frontend/src/pages/CreateCampaignPage.tsx:72-75 | A target `parseFloat` cannot read is not refused by step 1. |
| CreateWizard.HandleNext | frontend/src/pages/CreateCampaignPage.tsx:39-44 | The step advances by exactly 1 with the error cleared iff the step validates. Otherwise the step stays and the validator's message shows. The form never changes. |
| CreateWizard.HandleBack | frontend/src/pages/CreateCampaignPage.tsx:46-49 | The step goes back by exactly 1, the error is cleared and the form is kept. |
| CreateWizard.HandleInputChange | frontend/src/pages/CreateCampaignPage.tsx:112-118 | Only the named field takes the new value; the other fields and the step stay, and the error is cleared. |
| CreateWizard.React | frontend/src/pages/CreateCampaignPage.tsx:251-266 | With Back disabled at step 0 and Next absent at the last step, the step stays within [0, 2] and moves by at most one. |
| CreateWizard.ReactKeepsReviewed | frontend/src/pages/CreateCampaignPage.tsx:120-182 | Typing only reaches the fields the current step renders (`Shown`: the title at step 0; description, target and duration at step 1; none at the review step), so every step already passed still validates after any event. |
| CreateWizard.SessionReviewed | frontend/src/pages/CreateCampaignPage.tsx:39-83 | After any sequence of events from a fresh page, the step is within [0, 2] and all earlier steps validate with the current form. |
| CreateWizard.HandleSubmit | frontend/src/pages/CreateCampaignPage.tsx:85-98 | Refused with "Please connect your wallet" iff no account. Otherwise it sends the typed title, description and target, and the duration as days · 86400 seconds (NaN stays NaN). |
| CreateWizard.SubmitReviewed | frontend/src/pages/CreateCampaignPage.tsx:85-98 | From the review step with an account, the submission has a valid title and description, a non-empty target that `parseFloat` reads as positive or cannot read, and a positive whole number of days unless the duration was unreadable. |
| CreateWizard.ReviewedSubmission | frontend/src/pages/CreateCampaignPage.tsx:252-262 | Whatever the user did to reach the review step, creating from it submits such a form. |
| HomeStats.ActiveCount | frontend/src/pages/HomePage.tsx:36-40 | Counts the campaigns the page's counting loop accepts at HomePage.tsx:38 (`CountsAsActive`: active and now ≤ deadline·1000, whatever the amounts). At most the number of campaigns, and 0 iff none is counted. |
| HomeStats.SuccessfulCount | frontend/src/pages/HomePage.tsx:43-45 | At most the number of campaigns, and 0 iff none reached its target. |
| HomeStats.SuccessRate | frontend/src/pages/HomePage.tsx:48-54 | 0 without campaigns, and always in [0, 100]. Otherwise it is 100 · successful / total rounded to the nearest integer, computed exactly. It is 100 iff at least 99.5 % succeeded. |
| HomeStats.LoadStats | frontend/src/pages/HomePage.tsx:19-55 | The total is the number of ids. The active and successful counts are those of the campaigns. The rate is the rounded percentage. active ≤ total and rate ≤ 100. |
| HomeStats.KeptIsCounted | frontend/src/pages/HomePage.tsx:38 | Every campaign the list page keeps under "active" is counted as active on the home page. |
| HomeStats.KeptWithinActiveCount | frontend/src/pages/HomePage.tsx:36-40 | The "active" list is never longer than the home page's active count. |
| HomeStats.TargetReachedCountedNotKept | frontend/src/pages/HomePage.tsx:38 | The converse fails: an unexpired campaign at its target is counted here but left out of the list. |
| ContractClient.Translate | frontend/src/hooks/useContract.tsx:115-126 | A message containing "revert data" (`Includes`, the substring test of `.includes`) gets the transaction-failed text. Else one containing "Minimum ETH for gas required" gets the send-at-least text. Else the message is passed on behind "Failed to make donation: ". |
| ContractClient.RevertDataWins | frontend/src/hooks/useContract.tsx:115-124 | A message carrying both markers gets the transaction-failed text. |
| ContractClient.LocalMinimumMessage | frontend/src/hooks/useContract.tsx:102-104 | The hook's own error text for a value under the minimum: the fixed sentence, the value as printed, then " ETH". |
| ContractClient.LocalMinimumHasNoRevertData | frontend/src/hooks/useContract.tsx:101-120 | The hook's own minimum message never contains "revert data", whatever number it shows. |
| ContractClient.LocalMinimumHasNoGasMarker | frontend/src/hooks/useContract.tsx:101-124 | The hook's own minimum message never contains "Minimum ETH for gas required". |
| ContractClient.LocalMinimumTranslation | frontend/src/hooks/useContract.tsx:101-126 | The local minimum error always surfaces as "Failed to make donation: Minimum donation amount …". |
| ContractClient.Donate | frontend/src/hooks/useContract.tsx:86-127 | A transaction is sent iff the amount converts and is ≥ 10^15 wei, and the value sent is exactly that amount. A conversion error or a value below the minimum is refused locally with the translated message. A sent transaction succeeds iff it is mined, and a revert comes back translated. |
| ContractClient.DonorsCountOrZero | frontend/src/hooks/useContract.tsx:181-193 | The chain's count when the read succeeds, 0 when it fails. |
| ContractClient.FirstCreated | frontend/src/hooks/useContract.tsx:63-70 | None iff the receipt holds no CampaignCreated log. Otherwise it is the id of the first such log. |
| ContractClient.CreateCampaign | frontend/src/hooks/useContract.tsx:56-84 | A reverted creation fails with "Failed to create campaign: " and the message. A mined one returns the first CampaignCreated id, or 0 without one. |
| ContractClient.MissingEventReadsAsCampaignZero | frontend/src/hooks/useContract.tsx:72-77 | A receipt without the event reads the same as the creation of campaign 0. |
| ContractClient.CloseCampaign | frontend/src/hooks/useContract.tsx:206-218 | Succeeds iff mined, otherwise fails with "Failed to close campaign: " and the message. |
| Views.ListingOf | frontend/src/pages/CampaignsPage.tsx:48-60 | A listing carries the id and exactly the creator, active flag, deadline, target and balance the ledger stores for it. |
| Views.Listings | frontend/src/pages/CampaignsPage.tsx:43-62 | One listing per id of `getAllCampaigns`, in that order. |
| Views.ActiveFilterWithinLedger | frontend/src/pages/CampaignsPage.tsx:67-83 | Every campaign the list page shows under "active" is in the contract's own active list. |
| Views.PercentageIsFlooredProgress | frontend/src/pages/CampaignsPage.tsx:112-116 | For a positive target, the contract's percentage is the client's progress bar value rounded down. |
| Views.SameMinimum | frontend/src/hooks/useContract.tsx:100-101 | The hook's minimum is the contract's gas floor, 10^15 wei. |
| Views.SentValueClearsLedgerFloor | frontend/src/hooks/useContract.tsx:96-109 | A value the hook sends is never refused by the contract as "Minimum ETH for gas required". |
| Views.EtherThresholdIsWeiMinimum | frontend/src/pages/CampaignDetailsPage.tsx:103-106 | The details page's 0.001 ether threshold is the hook's 10^15 wei threshold. |
| Views.OfferedDonationAccepted | frontend/src/pages/CampaignDetailsPage.tsx:179-191 | A donation the details page offers, at or above the minimum and with an accepted proof, commits on the ledger. |
| Views.LogOf | frontend/src/hooks/useContract.tsx:63-70 | A ledger event parses as a CampaignCreated log iff it is one, with the same id. |
| Views.CreatedIdRoundTrip | frontend/src/pages/CreateCampaignPage.tsx:98-102 | After a committed creation, the hook reads back exactly the new id, and the details page it navigates to finds that id listed and loads it. |
| Views.ClientDonorsCount | frontend/src/hooks/useContract.tsx:181-193 | The count the pages see is the number of distinct donors for a listed campaign, and 0 for an unknown id. |
| Views.ReviewedFormIsCreated | frontend/src/pages/CreateCampaignPage.tsx:85-98 | A form submitted from the review step, with a readable duration and a positive wei target, passes every check of the contract's `createCampaign`. |
| Text.Trim | frontend/src/pages/CreateCampaignPage.tsx:54 | `trim` returns the input with its outer whitespace removed: a contiguous piece of it with only whitespace before and after. The result is empty iff the input is all whitespace, and otherwise neither starts nor ends with whitespace. |
| Text.Lower | frontend/src/pages/CampaignDetailsPage.tsx:138 | Same length as the input; each ASCII capital is lowered and every other character is kept. |
| Text.SameIgnoringCaseIff | frontend/src/pages/CampaignDetailsPage.tsx:204 | Two addresses compare equal after lowering iff they have the same length and agree character by character once lowered. |

## Left out

- The homomorphic encryption itself and proof verification. Sealed amounts are opaque byte tokens, an encrypted sum is the list of its summands, and the verifier's verdict is a boolean parameter. The random mock ciphertexts and proofs the hook sends (`frontend/src/hooks/useContract.tsx:93-94`) are not modelled.
- Ledger.Reason: the revert of a rejected proof and of a failed transfer has no known string, so it is `None`.
- Ledger.CreateCampaign: amounts, durations and deadlines are unbounded naturals, not `uint256`. A duration so large that `now + duration` exceeds 2^256 - 1 would revert on chain, but the model creates the campaign. The same holds for every sum of wei amounts in the ledger.
- Ledger.WithdrawFunds: what the contract stores in `currentAmount` after a withdrawal is not observable in the tests. The model keeps it and only sets the flag. The lemmas that say a recorded balance only grows or equals the sum of the campaign's donations (`LedgerRuns.RunExtends`, `LedgerRuns.RunFunding`, `LedgerRuns.GenesisCampaign`) depend on this choice once a campaign has been withdrawn. What the contract owes, `Ledger.Held`, does drop to 0.
- Ledger.GetCampaignBalance: no test, page or script calls it. Its behaviour, the stored `currentAmount` or "Campaign does not exist", is inferred from its ABI signature and name.
- Gas accounting in the withdrawal test (`gasUsed * gasPrice`). Only the amount the ledger transfers is modelled.
- Block timestamps: `now` in `createCampaign` is a parameter. No ledger operation consults the deadline.
- Floating point:
  - The pages compare wei amounts through `parseFloat`, which loses precision above 2^53; the model compares them exactly.
  - `/1e18` scaling, `toFixed`, `formatAmount`/`formatDate` and the total raised on the home page are not modelled.
  - The `(parseFloat(x) * 1e18).toString()` conversions to wei are not modelled. The creation wizard submits the target as typed text, and `Donate` takes the result of `BigInt` (or its error message) directly.
- `parseInt` and `parseFloat` themselves. Their results are inputs of type `Parsed<T>`.
- CampaignStatus.StatusOf: takes one clock reading, where the page calls `Date.now()` again for each campaign.
- CampaignStatus.Visible: takes one clock reading, where the page calls `Date.now()` again for each campaign.
- HomeStats.LoadStats: takes one clock reading for the whole pass, where the page reads it once per campaign. The total raised is not computed. Its success rate has the exact rounding of HomeStats.SuccessRate, not the page's floating-point rounding.
- HomeStats.SuccessRate: rounds the exact ratio. The page computes `(successful / total) * 100` in floating point before `Math.round`, and the product can land just below a half: 23 of 40 gives 57.49999999999999, shown as 57, where the model gives 58.
- Text.Lower: lowers ASCII letters only, which covers the hexadecimal account addresses the pages compare.
- CreateWizard.ValidateStep: title and description lengths count Unicode characters, where JavaScript's `length` counts UTF-16 code units. A text with characters outside the Basic Multilingual Plane can pass the page's length tests while failing the model's.
- The details page's own `getProgress` is the list page's formula over the loaded campaign, so `CampaignStatus.ProgressOf` covers both.
- The read wrappers of the hook (`getCampaignBasicInfo`, `getAllCampaigns`, `getActiveCampaigns`, `getTotalCampaigns`, `getProgressPercentage`) only rethrow with a prefix and convert with `Number`. The model reads the ledger directly.
- Wallet connection, chain switching and event listeners (`frontend/src/hooks/useWallet.tsx`): browser and network I/O.
- Deployment and inspection scripts (`scripts/*.ts`, `deploy/deploy-fundraising.ts`): I/O against live contracts.
- React rendering, routing, `setTimeout` delays and `Promise.all` orchestration. Success messages and loading flags are not modelled.
- `AboutPage.tsx`, `App.tsx`, `config/contract.ts` and `Navbar.tsx` hold static content or trivial formatting.

=== FILE: campaign_details.dfy ===
/** The campaign details page: its expiry, donation and closing gates, its own
    status text, and the checks `handleDonate`, `handleCloseCampaign` and
    `loadCampaign` make before calling the contract. `campaign` is `None`
    until the page has loaded one; `account` is `None` without a wallet. */
module CampaignDetails {
  import opened Results
  import opened Text
  import S = CampaignStatus

  /** A wallet account is connected (`account` is truthy: present, non-empty). */
  predicate Connected(account: Option<string>) {
    account.Some? && account.value != ""
  }

  /** `isExpired()`. */
  function Expired(campaign: Option<S.Listing>, now: nat): (e: bool)
    ensures e ==> campaign.Some?
    ensures campaign.Some? ==> (e <==> S.IsExpired(campaign.value, now))
  {
    match campaign
    case None => false
    case Some(c) => now > c.deadline * 1000
  }

  /** `isTargetReached()`. */
  function TargetReached(campaign: Option<S.Listing>): (reached: bool)
    ensures reached ==> campaign.Some?
    ensures campaign.Some? ==> (reached <==> S.HasReachedTarget(campaign.value))
  {
    match campaign
    case None => false
    case Some(c) => c.currentAmount >= c.targetAmount
  }

  /** `canDonate()`: the donate button is offered. */
  function CanDonate(campaign: Option<S.Listing>, account: Option<string>, now: nat): (ok: bool)
    ensures ok <==> Connected(account) && campaign.Some? && campaign.value.active
                    && !S.IsExpired(campaign.value, now)
                    && campaign.value.currentAmount < campaign.value.targetAmount
  {
    if campaign.None? || !Connected(account) then false
    else if !campaign.value.active || Expired(campaign, now) then false
    else if campaign.value.currentAmount >= campaign.value.targetAmount then false
    else true
  }

  /** `canCloseCampaign()`: the close button is offered. */
  function CanCloseCampaign(campaign: Option<S.Listing>, account: Option<string>, now: nat): (ok: bool)
    ensures ok <==> CanDonate(campaign, account, now) && SameIgnoringCase(account.value, campaign.value.creator)
  {
    if campaign.None? || !Connected(account) then false
    else if !SameIgnoringCase(account.value, campaign.value.creator) then false
    else if !campaign.value.active || Expired(campaign, now) then false
    else if TargetReached(campaign) then false
    else true
  }

  /** Whoever may close a campaign may also donate to it. */
  lemma CloseImpliesDonate(campaign: Option<S.Listing>, account: Option<string>, now: nat)
    ensures CanCloseCampaign(campaign, account, now) ==> CanDonate(campaign, account, now)
  {
  }

  /** `getCampaignStatus()` of the details page. */
  function DetailStatus(campaign: Option<S.Listing>, now: nat): (shown: string)
    ensures campaign.None? <==> shown == "Unknown"
  {
    if campaign.None? then "Unknown"
    else if !campaign.value.active then "Ended"
    else if Expired(campaign, now) then "Expired"
    else if TargetReached(campaign) then "Target Reached"
    else "Active"
  }

  /** The details page and the list page classify a loaded campaign alike. */
  lemma DetailStatusAgreesWithList(c: S.Listing, now: nat)
    ensures DetailStatus(Some(c), now) == S.Label(S.StatusOf(c, now))
  {
  }

  /** With a wallet connected, the page reads "Active" exactly when it offers
      the donate button. */
  lemma ActiveIffCanDonate(campaign: Option<S.Listing>, account: Option<string>, now: nat)
    requires Connected(account)
    ensures DetailStatus(campaign, now) == "Active" <==> CanDonate(campaign, account, now)
  {
  }

  /** The outcome of a page-side check: call the contract, or show a message. */
  datatype Verdict = Proceed | Refuse(message: string)

  const ConnectAndEnterAmount := "Please connect wallet and enter donation amount"
  const AmountNotPositive := "Donation amount must be greater than 0"
  const AmountBelowMinimum := "Minimum donation amount is 0.001 ETH to cover gas costs"

  /** The checks of `handleDonate` before `donate` is called: `amountText` is
      the input as typed, `amount` what `parseFloat` made of it (in ether). */
  function DonateGuard(account: Option<string>, campaign: Option<S.Listing>, amountText: string,
                       amount: Parsed<real>): (v: Verdict)
    ensures v == Proceed <==> Connected(account) && campaign.Some? && amountText != ""
                               && (amount.NaN? || amount.v >= 0.001)
    ensures !(Connected(account) && campaign.Some? && amountText != "") ==> v == Refuse(ConnectAndEnterAmount)
    ensures (Connected(account) && campaign.Some? && amountText != "" && amount.Value? && amount.v <= 0.0) ==>
              v == Refuse(AmountNotPositive)
    ensures (Connected(account) && campaign.Some? && amountText != "" && amount.Value?
             && 0.0 < amount.v < 0.001) ==> v == Refuse(AmountBelowMinimum)
  {
    if !Connected(account) || campaign.None? || amountText == "" then Refuse(ConnectAndEnterAmount)
    else if amount.Value? && amount.v <= 0.0 then Refuse(AmountNotPositive)
    else if amount.Value? && amount.v < 0.001 then Refuse(AmountBelowMinimum)
    else Proceed
  }

  /** An input `parseFloat` cannot read slips through both numeric checks,
      since every comparison with NaN is false. */
  lemma UnreadableAmountPasses(account: Option<string>, campaign: Option<S.Listing>, amountText: string)
    requires Connected(account) && campaign.Some? && amountText != ""
    ensures DonateGuard(account, campaign, amountText, NaN) == Proceed
  {
  }

  const ConnectWallet := "Please connect wallet"
  const OnlyCreatorCloses := "Only campaign creator can close the campaign"

  /** The checks of `handleCloseCampaign` before `closeCampaign` is called. */
  function CloseGuard(campaign: Option<S.Listing>, account: Option<string>): (v: Verdict)
    ensures v == Proceed <==> campaign.Some? && Connected(account)
                               && SameIgnoringCase(account.value, campaign.value.creator)
    ensures campaign.None? || !Connected(account) ==> v == Refuse(ConnectWallet)
    ensures (campaign.Some? && Connected(account)
             && !SameIgnoringCase(account.value, campaign.value.creator)) ==> v == Refuse(OnlyCreatorCloses)
  {
    if campaign.None? || !Connected(account) then Refuse(ConnectWallet)
    else if Lower(account.value) != Lower(campaign.value.creator) then Refuse(OnlyCreatorCloses)
    else Proceed
  }

  /** The close button is only offered when the close handler would go ahead. */
  lemma CloseButtonPassesGuard(campaign: Option<S.Listing>, account: Option<string>, now: nat)
    requires CanCloseCampaign(campaign, account, now)
    ensures CloseGuard(campaign, account) == Proceed
  {
  }

  /** What `loadCampaign` does with the route parameter. */
  datatype LoadVerdict =
    | Skip                                    // no id in the route: nothing happens
    | InvalidId                               // negative or unreadable id
    | Unknown(id: nat, available: seq<nat>)   // not among the listed ids
    | Load(id: nat)                           // fetch this campaign

  /** `param` is the route's `id` text, `parsed` what `parseInt` made of it,
      `listed` the ids `getAllCampaigns` returned. */
  function LoadGuard(param: string, parsed: Parsed<int>, listed: seq<nat>): (v: LoadVerdict)
    ensures param == "" <==> v == Skip
    ensures v.Load? <==> param != "" && parsed.Value? && parsed.v >= 0 && parsed.v in listed
    ensures v.Load? ==> parsed.Value? && v.id == parsed.v
    ensures v == InvalidId <==> param != "" && (parsed.NaN? || parsed.v < 0)
  {
    if param == "" then Skip
    else if parsed.NaN? || parsed.v < 0 then InvalidId
    else if parsed.v !in listed then Unknown(parsed.v, listed)
    else Load(parsed.v)
  }
}

=== FILE: campaign_status.dfy ===
/** The campaign list page: status classification, the status filter, the
    status colour and the progress bar value. Amounts are wei, deadlines are
    seconds, the clock `now` is milliseconds. */
module CampaignStatus {

  /** A campaign as the pages load it through `getCampaignBasicInfo`. */
  datatype Listing = Listing(id: nat, creator: string, active: bool, deadline: nat,
                             targetAmount: nat, currentAmount: nat)

  datatype Status = Ended | Expired | TargetReached | Active

  /** The text shown on the status chip. */
  function Label(st: Status): string {
    match st
    case Ended => "Ended"
    case Expired => "Expired"
    case TargetReached => "Target Reached"
    case Active => "Active"
  }

  predicate IsExpired(c: Listing, now: nat) {
    now > c.deadline * 1000
  }

  predicate HasReachedTarget(c: Listing) {
    c.currentAmount >= c.targetAmount
  }

  /** `getCampaignStatus(campaign)`: Ended, then Expired, then Target Reached,
      otherwise Active. */
  function StatusOf(c: Listing, now: nat): (st: Status)
    ensures st == Ended <==> !c.active
    ensures st == Expired <==> c.active && IsExpired(c, now)
    ensures st == TargetReached <==> c.active && !IsExpired(c, now) && HasReachedTarget(c)
    ensures st == Active <==> c.active && !IsExpired(c, now) && !HasReachedTarget(c)
  {
    if !c.active then Ended
    else if IsExpired(c, now) then Expired
    else if HasReachedTarget(c) then TargetReached
    else Active
  }

  /** An ended campaign reads "Ended" whatever the clock and the amounts say. */
  lemma EndedIgnoresClockAndAmounts(c: Listing, now: nat, now': nat, target: nat, current: nat)
    requires !c.active
    ensures StatusOf(c, now) == StatusOf(c.(targetAmount := target, currentAmount := current), now') == Ended
  {
  }

  /** The labels are distinct, so the chip text determines the status. */
  lemma LabelInjective(a: Status, b: Status)
    ensures Label(a) == Label(b) <==> a == b
  {
    if a != b {
      assert Label(a)[0] != Label(b)[0] || |Label(a)| != |Label(b)|;
    }
  }

  /** The callback handed to `filter` when "active" is selected. */
  function KeptAsActive(c: Listing, now: nat): (kept: bool)
    ensures kept ==> c.active && !IsExpired(c, now) && !HasReachedTarget(c)
    ensures c.active && !IsExpired(c, now) && !HasReachedTarget(c) ==> kept
  {
    if !c.active then false
    else if now > c.deadline * 1000 then false
    else if c.currentAmount >= c.targetAmount then false
    else true
  }

  /** The filter callback and the classifier are written separately; they
      agree: a campaign is kept exactly when its status is Active. */
  lemma KeptAsActiveIffActive(c: Listing, now: nat)
    ensures KeptAsActive(c, now) <==> StatusOf(c, now) == Active
  {
  }

  /** `a` is `b` with some elements deleted, order kept. */
  predicate IsSubsequence<T(==)>(a: seq<T>, b: seq<T>)
    decreases |b|
  {
    if b == [] then a == []
    else (a != [] && a[0] == b[0] && IsSubsequence(a[1..], b[1..])) || IsSubsequence(a, b[1..])
  }

  /** `campaignsData.filter(...)` with the "active" callback. */
  function KeepActive(cs: seq<Listing>, now: nat): (r: seq<Listing>)
    ensures IsSubsequence(r, cs)
    ensures forall c :: c in r ==> c in cs && StatusOf(c, now) == Active
    ensures forall c :: c in cs && StatusOf(c, now) == Active ==> c in r
    ensures forall c :: multiset(r)[c] == if StatusOf(c, now) == Active then multiset(cs)[c] else 0
  {
    if cs == [] then []
    else
      var rest := KeepActive(cs[1..], now);
      assert cs == [cs[0]] + cs[1..];
      assert multiset(cs) == multiset{cs[0]} + multiset(cs[1..]);
      if KeptAsActive(cs[0], now) then
        assert ([cs[0]] + rest)[1..] == rest;
        assert multiset([cs[0]] + rest) == multiset{cs[0]} + multiset(rest);
        [cs[0]] + rest
      else rest
  }

  /** What `loadCampaigns` shows for the selected filter: the list unchanged
      unless the filter is "active". */
  function Visible(cs: seq<Listing>, filter: string, now: nat): (r: seq<Listing>)
    ensures filter != "active" ==> r == cs
    ensures IsSubsequence(r, cs)
    ensures filter == "active" ==> forall c :: c in r <==> c in cs && StatusOf(c, now) == Active
    ensures filter == "active" ==>
              forall c :: multiset(r)[c] == if StatusOf(c, now) == Active then multiset(cs)[c] else 0
  {
    if filter == "active" then KeepActive(cs, now) else IsSubsequenceRefl(cs); cs
  }

  lemma {:induction false} IsSubsequenceRefl<T>(s: seq<T>)
    ensures IsSubsequence(s, s)
    decreases |s|
  {
    if s != [] {
      IsSubsequenceRefl(s[1..]);
    }
  }

  /** `getStatusColor(status)`. */
  function StatusColor(status: string): (color: string)
    ensures color in {"success", "warning", "error", "default"}
    ensures color == "default" <==> status !in {"Active", "Target Reached", "Expired"}
  {
    match status
    case "Active" => "success"
    case "Target Reached" => "warning"
    case "Expired" => "error"
    case "Ended" => "default"
    case _ => "default"
  }

  /** The chip colour of each status: only Ended shares the fallback colour. */
  lemma ColorOfStatus(st: Status)
    ensures StatusColor(Label(st)) == (match st
                                       case Active => "success"
                                       case TargetReached => "warning"
                                       case Expired => "error"
                                       case Ended => "default")
  {
  }

  function MinReal(a: real, b: real): real {
    if a <= b then a else b
  }

  const WeiPerEther: real := 1_000_000_000_000_000_000.0

  /** `getProgress(current, target)` on ether amounts. */
  function Progress(current: real, target: real): (p: real)
    ensures target <= 0.0 ==> p == 0.0
    ensures p <= 100.0
    ensures current >= 0.0 ==> p >= 0.0
    ensures target > 0.0 ==> (p == 100.0 <==> current >= target)
  {
    if target > 0.0 then MinReal(current / target * 100.0, 100.0) else 0.0
  }

  /** The progress bar value of a listing, its wei amounts scaled to ether. */
  function ProgressOf(c: Listing): (p: real)
    ensures 0.0 <= p <= 100.0
    ensures c.targetAmount > 0 ==> (p == 100.0 <==> HasReachedTarget(c))
    ensures c.targetAmount == 0 ==> p == 0.0
  {
    Progress(c.currentAmount as real / WeiPerEther, c.targetAmount as real / WeiPerEther)
  }
}

=== FILE: contract_client.dfy ===
/** The contract hook of the client: the wei-exact minimum check `donate`
    makes before sending, the translation of its errors, the donor count that
    falls back to zero, and the id `createCampaign` reads back from the
    receipt. The chain's answer to a transaction is a parameter. */
module ContractClient {
  import opened Results
  import opened Text

  /** `ethers.parseEther("0.001")`: 10^15 wei. */
  const MinGasAmount: nat := 1_000_000_000_000_000

  /** What the chain made of a sent transaction. */
  datatype Reply<T> = Mined(receipt: T) | Reverted(message: string)

  const RevertData := "revert data"
  const GasRequired := "Minimum ETH for gas required"
  const TransactionFailed :=
    "Transaction failed. Please check that the campaign is active and you have sufficient ETH for gas."
  const SendAtLeastMinimum := "Please send at least 0.001 ETH to cover gas costs."
  const DonationFailedPrefix := "Failed to make donation: "

  /** The `catch` of `donate`: a revert-data message, then a gas-floor
      message, each get a fixed text; anything else is passed on with a prefix. */
  function Translate(message: string): (r: string)
    ensures Includes(message, RevertData) ==> r == TransactionFailed
    ensures !Includes(message, RevertData) && Includes(message, GasRequired) ==> r == SendAtLeastMinimum
    ensures !Includes(message, RevertData) && !Includes(message, GasRequired) ==>
              r == DonationFailedPrefix + message
  {
    if Includes(message, RevertData) then TransactionFailed
    else if Includes(message, GasRequired) then SendAtLeastMinimum
    else DonationFailedPrefix + message
  }

  /** A message carrying both markers gets the revert-data text: the first
      test wins. */
  lemma RevertDataWins(message: string)
    requires Includes(message, RevertData) && Includes(message, GasRequired)
    ensures Translate(message) == TransactionFailed
  {
  }

  /** The text of `ethers.formatEther`: digits, a point, perhaps a minus sign. */
  predicate Numeric(s: string) {
    forall j :: 0 <= j < |s| ==> s[j] in "0123456789.-"
  }

  /** The local minimum-check message, split at its only 'v' (in "cover")
      so that the proofs below can anchor on that one character;
      `LocalMinimumMessage` states that the pieces make up the source's
      single sentence. */
  const MinimumHead := "Minimum donation amount is 0.001 ETH to co"
  const MinimumTail := "er gas costs. You entered: "

  /** The error `donate` throws itself for a value under the minimum;
      `shown` is the value as `formatEther` prints it. */
  function LocalMinimumMessage(shown: string): (m: string)
    ensures m == "Minimum donation amount is 0.001 ETH to cover gas costs. You entered: " + shown + " ETH"
  {
    MinimumHead + "v" + MinimumTail + shown + " ETH"
  }

  lemma NotInConcat(c: char, p: string, shown: string, q: string)
    requires c !in p && c !in q && c !in "0123456789.-" && Numeric(shown)
    ensures c !in p + shown + q
  {
  }

  /** "revert data" cannot occur in the local message: its only 'v' would
      have to be the one of "cover", two places after a 'c' where the
      pattern has an 'r'. */
  lemma LocalMinimumHasNoRevertData(shown: string)
    requires Numeric(shown)
    ensures !Includes(LocalMinimumMessage(shown), RevertData)
  {
    var b := MinimumTail + shown + " ETH";
    var m := LocalMinimumMessage(shown);
    assert m == MinimumHead + ['v'] + b;
    assert 'v' !in MinimumHead;
    NotInConcat('v', MinimumTail, shown, " ETH");
    assert m[40] == 'c';
    forall i: nat | i <= |m| ensures !MatchesAt(m, RevertData, i) {
      if MatchesAt(m, RevertData, i) {
        AnchoredMatch(MinimumHead, 'v', b, RevertData, 2, i);
        MatchedChar(m, RevertData, i, 0);
      }
    }
  }

  /** The gas-floor marker has a 'q' (in "required"); the local message has none. */
  lemma LocalMinimumHasNoGasMarker(shown: string)
    requires Numeric(shown)
    ensures !Includes(LocalMinimumMessage(shown), GasRequired)
  {
    var m := LocalMinimumMessage(shown);
    assert 'q' !in MinimumHead + "v" + MinimumTail;
    NotInConcat('q', MinimumHead + "v" + MinimumTail, shown, " ETH");
    assert 'q' !in m;
    forall i: nat | i <= |m| ensures !MatchesAt(m, GasRequired, i) {
      if MatchesAt(m, GasRequired, i) {
        MatchedChar(m, GasRequired, i, 22);
      }
    }
  }

  /** The local minimum error reaches the page only with the generic prefix:
      neither special case catches it. */
  lemma LocalMinimumTranslation(shown: string)
    ensures Numeric(shown) ==>
              Translate(LocalMinimumMessage(shown)) == DonationFailedPrefix + LocalMinimumMessage(shown)
  {
    if Numeric(shown) {
      LocalMinimumHasNoRevertData(shown);
      LocalMinimumHasNoGasMarker(shown);
    }
  }

  /** A donation attempt: the value attached to the transaction if one was
      sent, and what the caller gets back. */
  datatype Attempt = Attempt(sent: Option<nat>, outcome: Result<(), string>)

  /** `donate(campaignId, amount)`. `amount` is `BigInt(amount)`, or the
      message of the error it threw; `shown` is `formatEther` of it; `reply`
      is what the chain makes of the transaction, when one is sent. */
  function Donate(amount: Result<int, string>, shown: string, reply: Reply<()>): (a: Attempt)
    ensures a.sent.Some? <==> amount.Ok? && amount.value >= MinGasAmount
    ensures a.sent.Some? ==> a.sent.value == amount.value
    ensures amount.Err? ==> a.outcome == Err(Translate(amount.error))
    ensures amount.Ok? && amount.value < MinGasAmount && Numeric(shown) ==>
              a.outcome == Err(DonationFailedPrefix + LocalMinimumMessage(shown))
    ensures a.sent.Some? ==> (a.outcome.Ok? <==> reply.Mined?)
    ensures a.sent.Some? && reply.Reverted? ==> a.outcome == Err(Translate(reply.message))
  {
    match amount
    case Err(message) => Attempt(None, Err(Translate(message)))
    case Ok(value) =>
      if value < MinGasAmount then
        LocalMinimumTranslation(shown);
        Attempt(None, Err(Translate(LocalMinimumMessage(shown))))
      else
        match reply
        case Mined(_) => Attempt(Some(value), Ok(()))
        case Reverted(message) => Attempt(Some(value), Err(Translate(message)))
  }

  /** `getDonorsCount`: the chain's count, or 0 whenever the read fails. */
  function DonorsCountOrZero(read: Result<nat, string>): (n: nat)
    ensures read.Ok? ==> n == read.value
    ensures read.Err? ==> n == 0
  {
    match read
    case Ok(count) => count
    case Err(_) => 0
  }

  /** A receipt log as `contract.interface.parseLog` sees it. */
  datatype Log =
    | CreatedLog(campaignId: nat)  // a `CampaignCreated` event of this contract
    | OtherLog                     // another event of this contract
    | Foreign                      // a log `parseLog` throws on

  /** The id of the first `CampaignCreated` log, if any. */
  function FirstCreated(logs: seq<Log>): (r: Option<nat>)
    ensures r.None? <==> forall k :: 0 <= k < |logs| ==> !logs[k].CreatedLog?
    ensures r.Some? ==> exists k :: 0 <= k < |logs| && logs[k] == CreatedLog(r.value)
                                    && forall j :: 0 <= j < k ==> !logs[j].CreatedLog?
  {
    if logs == [] then None
    else if logs[0].CreatedLog? then
      assert logs[0] == CreatedLog(logs[0].campaignId);
      Some(logs[0].campaignId)
    else
      var r := FirstCreated(logs[1..]);
      if r.Some? then
        var k :| 0 <= k < |logs[1..]| && logs[1..][k] == CreatedLog(r.value)
                 && forall j :: 0 <= j < k ==> !logs[1..][j].CreatedLog?;
        assert logs[k + 1] == CreatedLog(r.value);
        r
      else r
  }

  const CreateFailedPrefix := "Failed to create campaign: "

  /** `createCampaign`: the id of the receipt's `CampaignCreated` event, 0
      when the receipt has none, or the chain's error with a prefix. */
  function CreateCampaign(reply: Reply<seq<Log>>): (r: Result<nat, string>)
    ensures reply.Reverted? ==> r == Err(CreateFailedPrefix + reply.message)
    ensures reply.Mined? ==> r.Ok?
    ensures reply.Mined? && FirstCreated(reply.receipt).Some? ==> r.value == FirstCreated(reply.receipt).value
    ensures reply.Mined? && FirstCreated(reply.receipt).None? ==> r.value == 0
  {
    match reply
    case Reverted(message) => Err(CreateFailedPrefix + message)
    case Mined(logs) =>
      match FirstCreated(logs)
      case Some(id) => Ok(id)
      case None => Ok(0)
  }

  /** The fallback makes a receipt without the event indistinguishable from
      the creation of campaign 0. */
  lemma MissingEventReadsAsCampaignZero()
    ensures CreateCampaign(Mined([OtherLog])) == CreateCampaign(Mined([CreatedLog(0)])) == Ok(0)
  {
  }

  const CloseFailedPrefix := "Failed to close campaign: "

  /** `closeCampaign`: nothing on success, the chain's error with a prefix otherwise. */
  function CloseCampaign(reply: Reply<()>): (r: Result<(), string>)
    ensures r.Ok? <==> reply.Mined?
    ensures reply.Reverted? ==> r.error == CloseFailedPrefix + reply.message
  {
    match reply
    case Mined(_) => Ok(())
    case Reverted(message) => Err(CloseFailedPrefix + message)
  }
}

=== FILE: create_wizard.dfy ===
/** The three-step campaign creation wizard: its form, the per-step
    validator, the step counter driven by the Back and Next buttons, and the
    submission of the reviewed form. `parseFloat` and `parseInt` are the
    number readers of the page, passed in as functions. */
module CreateWizard {
  import opened Results
  import opened Text

  datatype Field = Title | Description | TargetAmount | Duration

  /** The form exactly as typed; the two amounts are kept as text. */
  datatype Form = Form(title: string, description: string, targetAmount: string, duration: string)

  /** The form a fresh page starts with: only the duration is pre-filled. */
  const InitialForm := Form("", "", "", "30")

  /** The index of "Review and Create", the last of the three steps. */
  const LastStep := 2

  datatype Wizard = Wizard(step: int, form: Form, error: Option<string>)

  const Start := Wizard(0, InitialForm, None)

  /** Reads a number out of the text; `NaN` when it cannot. */
  type Reader<T> = string -> Parsed<T>

  const TitleRequired := "Campaign title is required"
  const TitleTooShort := "Title must be at least 5 characters long"
  const DescriptionRequired := "Campaign description is required"
  const DescriptionTooShort := "Description must be at least 20 characters long"
  const TargetNotPositive := "Target amount must be greater than 0"
  const DurationNotPositive := "Duration must be greater than 0"

  /** `parseFloat(text) <= 0`, false for NaN as every comparison with it is. */
  predicate NotAbove0Real(p: Parsed<real>) {
    p.Value? && p.v <= 0.0
  }

  predicate NotAbove0Int(p: Parsed<int>) {
    p.Value? && p.v <= 0
  }

  /** What step 0 asks of the title: not blank, and at least 5 characters
      counted before trimming. */
  predicate TitleOk(title: string) {
    !Blank(title) && |title| >= 5
  }

  /** What step 1 asks of the rest of the form. */
  predicate DetailsOk(form: Form, parseFloat: Reader<real>, parseInt: Reader<int>) {
    && !Blank(form.description) && |form.description| >= 20
    && form.targetAmount != "" && !NotAbove0Real(parseFloat(form.targetAmount))
    && form.duration != "" && !NotAbove0Int(parseInt(form.duration))
  }

  /** `validateStep()`: `None` when the current step may be left forward,
      otherwise the message it shows. */
  function ValidateStep(step: int, form: Form, parseFloat: Reader<real>, parseInt: Reader<int>): (r: Option<string>)
    ensures step != 0 && step != 1 ==> r == None
    ensures step == 0 ==> (r == None <==> TitleOk(form.title))
    ensures step == 1 ==> (r == None <==> DetailsOk(form, parseFloat, parseInt))
    ensures step == 0 && Blank(form.title) ==> r == Some(TitleRequired)
    ensures step == 0 && !Blank(form.title) && |form.title| < 5 ==> r == Some(TitleTooShort)
    ensures step == 1 && Blank(form.description) ==> r == Some(DescriptionRequired)
    ensures step == 1 && !Blank(form.description) && |form.description| < 20 ==> r == Some(DescriptionTooShort)
    ensures (step == 1 && !Blank(form.description) && |form.description| >= 20
             && (form.targetAmount == "" || NotAbove0Real(parseFloat(form.targetAmount)))) ==>
              r == Some(TargetNotPositive)
    ensures (step == 1 && !Blank(form.description) && |form.description| >= 20
             && form.targetAmount != "" && !NotAbove0Real(parseFloat(form.targetAmount))
             && (form.duration == "" || NotAbove0Int(parseInt(form.duration)))) ==>
              r == Some(DurationNotPositive)
    ensures r.Some? ==> r.value in {TitleRequired, TitleTooShort, DescriptionRequired,
                                    DescriptionTooShort, TargetNotPositive, DurationNotPositive}
  {
    if step == 0 then
      if Trim(form.title) == "" then Some(TitleRequired)
      else if |form.title| < 5 then Some(TitleTooShort)
      else None
    else if step == 1 then
      if Trim(form.description) == "" then Some(DescriptionRequired)
      else if |form.description| < 20 then Some(DescriptionTooShort)
      else if form.targetAmount == "" || NotAbove0Real(parseFloat(form.targetAmount)) then Some(TargetNotPositive)
      else if form.duration == "" || NotAbove0Int(parseInt(form.duration)) then Some(DurationNotPositive)
      else None
    else None
  }

  /** The length test counts the untrimmed title: two letters padded with
      three spaces pass step 0, though the trimmed title is too short. */
  lemma PaddedTitlePasses(parseFloat: Reader<real>, parseInt: Reader<int>)
    ensures |Trim("  ab ")| == 2
    ensures ValidateStep(0, InitialForm.(title := "  ab "), parseFloat, parseInt) == None
  {
    var t := "  ab ";
    assert !IsSpace(t[2]) && !IsSpace(t[3]);
    assert !Blank(t);
    assert TitleOk(t);
    var r := Trim(t);
    assert |r| == 2 by {
      var u := TrimStart(t);
      assert u == t[|t| - |u|..];
      assert IsSpace(t[0]) && IsSpace(t[1]) && IsSpace(t[4]);
      assert |u| == 3;
      assert r == u[..|r|];
    }
  }

  /** A target `parseFloat` cannot read is not refused by step 1. */
  lemma UnreadableTargetPasses(form: Form, parseFloat: Reader<real>, parseInt: Reader<int>)
    requires !Blank(form.description) && |form.description| >= 20
    requires form.targetAmount != "" && parseFloat(form.targetAmount) == NaN
    requires form.duration != "" && parseInt(form.duration) == Value(30)
    ensures ValidateStep(1, form, parseFloat, parseInt) == None
  {
  }

  /** `handleNext`: one step forward with the error cleared when the step
      validates, otherwise the step stays and its message is shown. */
  function HandleNext(w: Wizard, parseFloat: Reader<real>, parseInt: Reader<int>): (w': Wizard)
    ensures w'.form == w.form
    ensures ValidateStep(w.step, w.form, parseFloat, parseInt) == None ==> w'.step == w.step + 1 && w'.error == None
    ensures ValidateStep(w.step, w.form, parseFloat, parseInt) != None ==>
              w'.step == w.step && w'.error == ValidateStep(w.step, w.form, parseFloat, parseInt)
  {
    match ValidateStep(w.step, w.form, parseFloat, parseInt)
    case None => w.(step := w.step + 1, error := None)
    case Some(message) => w.(error := Some(message))
  }

  /** `handleBack`: one step back, error cleared, form kept. */
  function HandleBack(w: Wizard): (w': Wizard)
    ensures w'.step + 1 == w.step && w'.error == None && w'.form == w.form
  {
    Wizard(w.step - 1, w.form, None)
  }

  /** `handleInputChange(field)`: the named field takes the typed value; the
      other fields and the step stay, and the error is cleared. */
  function HandleInputChange(w: Wizard, field: Field, value: string): (w': Wizard)
    ensures w'.step == w.step && w'.error == None
    ensures w'.form.title == (if field == Title then value else w.form.title)
    ensures w'.form.description == (if field == Description then value else w.form.description)
    ensures w'.form.targetAmount == (if field == TargetAmount then value else w.form.targetAmount)
    ensures w'.form.duration == (if field == Duration then value else w.form.duration)
  {
    var f := w.form;
    var f' := match field
      case Title => f.(title := value)
      case Description => f.(description := value)
      case TargetAmount => f.(targetAmount := value)
      case Duration => f.(duration := value);
    Wizard(w.step, f', None)
  }

  /** What the user can do on the page: type into a field, press Back, press Next. */
  datatype UiEvent = Type(field: Field, value: string) | Back | Next

  /** The fields rendered at each step; the review step renders none. */
  function Shown(step: int): set<Field> {
    if step == 0 then {Title}
    else if step == 1 then {Description, TargetAmount, Duration}
    else {}
  }

  /** One event as the page lets it through: typing only reaches a rendered
      field, Back is disabled at step 0, and Next is replaced by the create
      button at the last step. */
  function React(w: Wizard, e: UiEvent, parseFloat: Reader<real>, parseInt: Reader<int>): (w': Wizard)
    ensures 0 <= w.step <= LastStep ==> 0 <= w'.step <= LastStep
    ensures w'.step == w.step || w'.step == w.step + 1 || w'.step + 1 == w.step
  {
    match e
    case Type(field, value) => if field in Shown(w.step) then HandleInputChange(w, field, value) else w
    case Back => if w.step != 0 then HandleBack(w) else w
    case Next => if w.step != LastStep then HandleNext(w, parseFloat, parseInt) else w
  }

  /** The page after a sequence of events from a fresh start. */
  function Session(events: seq<UiEvent>, parseFloat: Reader<real>, parseInt: Reader<int>): Wizard
    decreases |events|
  {
    if events == [] then Start
    else React(Session(events[..|events| - 1], parseFloat, parseInt), events[|events| - 1], parseFloat, parseInt)
  }

  /** Every step before the current one validates with the current form. */
  predicate Reviewed(w: Wizard, parseFloat: Reader<real>, parseInt: Reader<int>) {
    && 0 <= w.step <= LastStep
    && (w.step >= 1 ==> TitleOk(w.form.title))
    && (w.step >= 2 ==> DetailsOk(w.form, parseFloat, parseInt))
  }

  /** One event keeps the earlier steps validated: a field can only change
      while its own step is shown, and leaving a step forward validates it. */
  lemma ReactKeepsReviewed(w: Wizard, e: UiEvent, parseFloat: Reader<real>, parseInt: Reader<int>)
    requires Reviewed(w, parseFloat, parseInt)
    ensures Reviewed(React(w, e, parseFloat, parseInt), parseFloat, parseInt)
  {
    var w' := React(w, e, parseFloat, parseInt);
    match e
    case Type(field, value) =>
      if field in Shown(w.step) {
        assert w'.form.title != w.form.title ==> w.step == 0;
        assert (w'.form.description != w.form.description || w'.form.targetAmount != w.form.targetAmount
                || w'.form.duration != w.form.duration) ==> w.step == 1;
      }
    case Back =>
    case Next =>
  }

  /** Whatever the user does, the step counter stays within the three steps
      and every step already passed still validates. */
  lemma {:induction false} SessionReviewed(events: seq<UiEvent>, parseFloat: Reader<real>, parseInt: Reader<int>)
    ensures Reviewed(Session(events, parseFloat, parseInt), parseFloat, parseInt)
    decreases |events|
  {
    if events != [] {
      SessionReviewed(events[..|events| - 1], parseFloat, parseInt);
      ReactKeepsReviewed(Session(events[..|events| - 1], parseFloat, parseInt), events[|events| - 1], parseFloat, parseInt);
    }
  }

  const SecondsPerDay := 24 * 60 * 60

  /** The arguments `handleSubmit` passes to `createCampaign`; the target is
      still the typed ether text, its conversion to wei is not modelled. */
  datatype Submission = Submission(title: string, description: string, targetText: string, durationSeconds: Parsed<int>)

  const ConnectWallet := "Please connect your wallet"

  /** `handleSubmit` up to the contract call: refused without a wallet,
      otherwise the form's text fields and the duration in seconds. */
  function HandleSubmit(w: Wizard, account: Option<string>, parseInt: Reader<int>): (r: Result<Submission, string>)
    ensures r.Err? <==> account.None? || account.value == ""
    ensures r.Err? ==> r.error == ConnectWallet
    ensures r.Ok? ==> r.value.title == w.form.title && r.value.description == w.form.description
                      && r.value.targetText == w.form.targetAmount
    ensures r.Ok? ==> (parseInt(w.form.duration).NaN? <==> r.value.durationSeconds.NaN?)
    ensures r.Ok? && r.value.durationSeconds.Value? ==>
              r.value.durationSeconds.v == parseInt(w.form.duration).v * 86400
  {
    if account.None? || account.value == "" then Err(ConnectWallet)
    else
      var seconds := match parseInt(w.form.duration)
        case NaN => NaN
        case Value(days) => Value(days * SecondsPerDay);
      Ok(Submission(w.form.title, w.form.description, w.form.targetAmount, seconds))
  }

  /** What a submission from the review step carries: a title and
      description that passed their checks, a non-empty target that
      `parseFloat` reads as positive or cannot read at all, and a
      duration that is a positive whole number of days in seconds unless
      `parseInt` could not read it (a NaN duration is not refused by step 1). */
  predicate SoundSubmission(r: Result<Submission, string>, parseFloat: Reader<real>) {
    && r.Ok? && !Blank(r.value.title) && |r.value.title| >= 5
    && !Blank(r.value.description) && |r.value.description| >= 20
    && r.value.targetText != "" && !NotAbove0Real(parseFloat(r.value.targetText))
    && (r.value.durationSeconds.Value? ==>
          r.value.durationSeconds.v > 0 && r.value.durationSeconds.v % SecondsPerDay == 0)
  }

  lemma SubmitReviewed(w: Wizard, account: Option<string>, parseFloat: Reader<real>, parseInt: Reader<int>)
    requires Reviewed(w, parseFloat, parseInt) && w.step == LastStep
    requires account.Some? && account.value != ""
    ensures SoundSubmission(HandleSubmit(w, account, parseInt), parseFloat)
  {
    var r := HandleSubmit(w, account, parseInt);
    if r.value.durationSeconds.Value? {
      WholeDays(parseInt(w.form.duration).v);
    }
  }

  lemma WholeDays(days: int)
    requires days > 0
    ensures days * SecondsPerDay > 0 && (days * SecondsPerDay) % SecondsPerDay == 0
  {
  }

  /** Whatever the user did to reach the review step, creating from it with a
      wallet connected submits a sound form. */
  lemma ReviewedSubmission(events: seq<UiEvent>, account: Option<string>,
                           parseFloat: Reader<real>, parseInt: Reader<int>)
    requires Session(events, parseFloat, parseInt).step == LastStep
    requires account.Some? && account.value != ""
    ensures SoundSubmission(HandleSubmit(Session(events, parseFloat, parseInt), account, parseInt), parseFloat)
  {
    SessionReviewed(events, parseFloat, parseInt);
    SubmitReviewed(Session(events, parseFloat, parseInt), account, parseFloat, parseInt);
  }
}

=== FILE: home_stats.dfy ===
/** The counting behind the statistics on the home page. Amounts are wei,
    deadlines seconds, the clock milliseconds. */
module HomeStats {
  import opened CampaignStatus

  /** Counted as active on the home page: not ended and the deadline not yet
      passed. Unlike the list page, a campaign that reached its target still
      counts. */
  predicate CountsAsActive(c: Listing, now: nat) {
    c.active && now <= c.deadline * 1000
  }

  /** Counted as successful: the target is reached, whether or not the
      campaign has ended. */
  predicate CountsAsSuccessful(c: Listing) {
    c.currentAmount >= c.targetAmount
  }

  /** The number of campaigns of `cs` counted as active. */
  function ActiveCount(cs: seq<Listing>, now: nat): (n: nat)
    ensures n <= |cs|
    ensures n == 0 <==> forall c :: c in cs ==> !CountsAsActive(c, now)
  {
    if cs == [] then 0
    else
      assert forall c :: c in cs ==> c == cs[0] || c in cs[1..];
      (if CountsAsActive(cs[0], now) then 1 else 0) + ActiveCount(cs[1..], now)
  }

  /** The number of campaigns of `cs` counted as successful. */
  function SuccessfulCount(cs: seq<Listing>): (n: nat)
    ensures n <= |cs|
    ensures n == 0 <==> forall c :: c in cs ==> !CountsAsSuccessful(c)
  {
    if cs == [] then 0
    else
      assert forall c :: c in cs ==> c == cs[0] || c in cs[1..];
      (if CountsAsSuccessful(cs[0]) then 1 else 0) + SuccessfulCount(cs[1..])
  }

  /** `Math.round(successful / total * 100)`, or 0 without campaigns: the
      percentage rounded to the nearest whole number, halves upwards. */
  function SuccessRate(successful: nat, total: nat): (r: nat)
    requires successful <= total
    ensures total == 0 ==> r == 0
    ensures r <= 100
    ensures total > 0 ==> 2 * total * r <= 200 * successful + total < 2 * total * (r + 1)
    ensures total > 0 ==> (r == 100 <==> 200 * successful >= 199 * total)
  {
    if total == 0 then 0
    else
      var r := (200 * successful + total) / (2 * total);
      RateBounds(successful, total, r);
      r
  }

  /** The quotient bounds behind `SuccessRate`'s contract. */
  lemma RateBounds(successful: nat, total: nat, r: nat)
    requires 0 < total && successful <= total
    requires r == (200 * successful + total) / (2 * total)
    ensures 2 * total * r <= 200 * successful + total < 2 * total * (r + 1)
    ensures r <= 100
    ensures r == 100 <==> 200 * successful >= 199 * total
  {
    var n, d := 200 * successful + total, 2 * total;
    assert d * r <= n < d * (r + 1) by {
      assert n == d * (n / d) + n % d;
    }
    if r > 100 {
      assert d * r >= d * 101 by { MulMono(d, 101, r); }
      assert false;
    }
    if r == 100 {
      assert d * 100 <= n;
    }
    if 200 * successful >= 199 * total && r < 100 {
      MulMono(d, r + 1, 100);
    }
  }

  lemma MulMono(d: nat, a: nat, b: nat)
    requires a <= b
    ensures d * a <= d * b
  {
  }

  /** The statistics `loadStats` displays, apart from the total raised. */
  datatype Stats = Stats(totalCampaigns: nat, activeCampaigns: nat, successRate: nat)

  /** `loadStats`: one pass over the campaigns the ids resolve to, counting
      the active and the successful ones. */
  method LoadStats(cs: seq<Listing>, now: nat) returns (stats: Stats)
    ensures stats.totalCampaigns == |cs|
    ensures stats.activeCampaigns == ActiveCount(cs, now)
    ensures stats.successRate == SuccessRate(SuccessfulCount(cs), |cs|)
    ensures stats.activeCampaigns <= stats.totalCampaigns && stats.successRate <= 100
  {
    var activeCount: nat := 0;
    var successfulCount: nat := 0;
    var i := 0;
    while i < |cs|
      invariant 0 <= i <= |cs|
      invariant activeCount + ActiveCount(cs[i..], now) == ActiveCount(cs, now)
      invariant successfulCount + SuccessfulCount(cs[i..]) == SuccessfulCount(cs)
    {
      var c := cs[i];
      assert cs[i..][1..] == cs[i + 1..];
      if c.active && now <= c.deadline * 1000 {
        activeCount := activeCount + 1;
      }
      if c.currentAmount >= c.targetAmount {
        successfulCount := successfulCount + 1;
      }
      i := i + 1;
    }
    var rate := SuccessRate(successfulCount, |cs|);
    stats := Stats(|cs|, activeCount, rate);
  }

  /** A campaign the list page keeps under "active" is counted as active
      here too. */
  lemma KeptIsCounted(c: Listing, now: nat)
    ensures KeptAsActive(c, now) ==> CountsAsActive(c, now)
  {
  }

  /** The "active" list is never longer than the home page's active count. */
  lemma {:induction false} KeptWithinActiveCount(cs: seq<Listing>, now: nat)
    ensures |KeepActive(cs, now)| <= ActiveCount(cs, now)
    decreases |cs|
  {
    if cs != [] {
      KeptWithinActiveCount(cs[1..], now);
    }
  }

  /** The two notions differ: an unexpired campaign that reached its target
      is counted as active here, yet the list page leaves it out. */
  lemma TargetReachedCountedNotKept()
    ensures var c := Listing(0, "0xabc", true, 100, 5, 5);
            CountsAsActive(c, 1000) && !KeptAsActive(c, 1000)
            && ActiveCount([c], 1000) == 1 && KeepActive([c], 1000) == []
  {
    var c := Listing(0, "0xabc", true, 100, 5, 5);
    assert KeepActive([c], 1000) == KeepActive([c][1..], 1000);
  }
}

=== FILE: ledger.dfy ===
/** The FundraisingPlatform contract as a sequential state machine.

    Every mutating entry point is a pure function from the current `State` to
    either the next state (the transaction commits) or an `Error` (it reverts and
    nothing changes). Campaign ids are positions in `campaigns`, so the id
    counter is `|campaigns|` and an id, once assigned, never moves. Encrypted
    amounts are opaque `Sealed` tokens; the homomorphic sum of several of them
    is represented by the list of its summands. */
module Ledger {
  import opened Results

  type Address = string
  type Wei = nat

  /** 0.001 ether: the smallest value a donation may attach. */
  const MinGasValue: Wei := 1_000_000_000_000_000

  /** An encrypted 64-bit amount supplied by a donor; never inspected. */
  datatype Sealed = Sealed(ciphertext: seq<bv8>)

  /** An encrypted total handed to an authorised reader: `Unset` is the zero
      handle of a total nothing was ever added to, `Sum(parts)` the
      homomorphic sum of `parts`. */
  datatype Encrypted = Unset | Sum(parts: seq<Sealed>)

  datatype Campaign = Campaign(
    creator: Address,
    title: string,
    description: string,
    targetAmount: Wei,
    deadline: nat,
    active: bool,
    currentAmount: Wei,
    withdrawn: bool,
    initialized: bool,
    raised: seq<Sealed>,                  // summands of the encrypted grand total
    donations: map<Address, seq<Sealed>>, // per-donor encrypted totals; a key marks "has donated"
    donorsCount: nat)

  /** All campaigns (id = position) and the ether the contract holds. */
  datatype State = State(campaigns: seq<Campaign>, balance: Wei)

  /** The freshly deployed contract. */
  const Genesis := State([], 0)

  datatype Error =
    | TitleRequired
    | DescriptionRequired
    | TargetNotPositive
    | DurationNotPositive
    | NotFound
    | NotCreator
    | AlreadyEnded
    | NotActive
    | BelowGasMinimum
    | ProofRejected
    | NotAuthorized
    | CreatorOnlyView
    | StillActive
    | AlreadyWithdrawn
    | TransferFailed

  /** The revert string a caller observes, where the contract states one; a
      rejected proof and a failed transfer revert without a known string. */
  function Reason(e: Error): (r: Option<string>)
    ensures r.None? <==> e == ProofRejected || e == TransferFailed
  {
    match e
    case TitleRequired => Some("Title required")
    case DescriptionRequired => Some("Description required")
    case TargetNotPositive => Some("Target amount must be greater than 0")
    case DurationNotPositive => Some("Duration must be greater than 0")
    case NotFound => Some("Campaign does not exist")
    case NotCreator => Some("Only campaign creator")
    case AlreadyEnded => Some("Campaign already ended")
    case NotActive => Some("Campaign not active")
    case BelowGasMinimum => Some("Minimum ETH for gas required")
    case ProofRejected => None
    case NotAuthorized => Some("Not authorized")
    case CreatorOnlyView => Some("Only creator can view")
    case StillActive => Some("Campaign still active")
    case AlreadyWithdrawn => Some("Funds already withdrawn")
    case TransferFailed => None
  }

  datatype Event =
    | CampaignCreated(campaignId: nat, creator: Address, title: string, targetAmount: Wei, deadline: nat)
    | DonationMade(campaignId: nat, donor: Address)

  // ---------------------------------------------------------------- invariant

  /** What every stored campaign satisfies. */
  predicate CampaignValid(c: Campaign) {
    && c.targetAmount > 0
    && c.donorsCount == |c.donations|
    && c.initialized == (|c.donations| > 0)
    && c.initialized == (|c.raised| > 0)
    && (forall d :: d in c.donations ==> |c.donations[d]| > 0)
    && (c.withdrawn ==> !c.active)
  }

  /** Ether the contract still owes to one campaign. */
  function Held(c: Campaign): Wei {
    if c.withdrawn then 0 else c.currentAmount
  }

  /** Ether owed to all campaigns together. */
  function TotalHeld(cs: seq<Campaign>): Wei {
    if cs == [] then 0 else TotalHeld(cs[..|cs| - 1]) + Held(cs[|cs| - 1])
  }

  /** The ledger invariant: every campaign is well formed and the contract's
      balance is exactly what it owes to campaigns not yet withdrawn. */
  function Valid(s: State): (b: bool)
    ensures b ==> forall id :: 0 <= id < |s.campaigns| ==> Held(s.campaigns[id]) <= s.balance
  {
    TotalHeldCoversAll(s.campaigns);
    && (forall id :: 0 <= id < |s.campaigns| ==> CampaignValid(s.campaigns[id]))
    && s.balance == TotalHeld(s.campaigns)
  }

  lemma {:induction false} TotalHeldUpdate(cs: seq<Campaign>, i: nat, c: Campaign)
    requires i < |cs|
    ensures TotalHeld(cs[i := c]) + Held(cs[i]) == TotalHeld(cs) + Held(c)
    decreases |cs|
  {
    var n := |cs| - 1;
    assert cs[i := c][..n] == if i == n then cs[..n] else cs[..n][i := c];
    if i < n {
      TotalHeldUpdate(cs[..n], i, c);
    }
  }

  lemma TotalHeldCoversAll(cs: seq<Campaign>)
    ensures forall i :: 0 <= i < |cs| ==> Held(cs[i]) <= TotalHeld(cs)
  {
    forall i | 0 <= i < |cs| ensures Held(cs[i]) <= TotalHeld(cs) {
      TotalHeldCovers(cs, i);
    }
  }

  lemma {:induction false} TotalHeldCovers(cs: seq<Campaign>, i: nat)
    requires i < |cs|
    ensures Held(cs[i]) <= TotalHeld(cs)
    decreases |cs|
  {
    if i < |cs| - 1 {
      TotalHeldCovers(cs[..|cs| - 1], i);
    }
  }

  // -------------------------------------------------------------- access rules

  /** The authorisation matrix of the contract, in one place. */
  datatype Rule = CreatorOnly | DonorOrCreator(donor: Address)

  predicate Permits(rule: Rule, c: Campaign, caller: Address) {
    match rule
    case CreatorOnly => caller == c.creator
    case DonorOrCreator(d) => caller == d || caller == c.creator
  }

  // ------------------------------------------------------------------ registry

  /** A campaign as `createCampaign` stores it: active, empty, not withdrawn. */
  predicate Fresh(c: Campaign, creator: Address, title: string, description: string,
                  targetAmount: Wei, deadline: nat)
  {
    && c.creator == creator && c.title == title && c.description == description
    && c.targetAmount == targetAmount && c.deadline == deadline
    && c.active && !c.withdrawn && !c.initialized
    && c.currentAmount == 0 && c.donorsCount == 0
    && c.donations == map[] && c.raised == []
  }

  datatype Created = Created(state: State, id: nat, event: Event)

  /** `createCampaign(title, description, target, duration)` sent by `caller`
      in a block stamped `now` (seconds). */
  function CreateCampaign(s: State, caller: Address, title: string, description: string,
                          targetAmount: Wei, duration: nat, now: nat): (r: Result<Created, Error>)
    ensures r.Ok? <==> title != [] && description != [] && targetAmount > 0 && duration > 0
    ensures title == [] ==> r == Err(TitleRequired)
    ensures title != [] && description == [] ==> r == Err(DescriptionRequired)
    ensures title != [] && description != [] && targetAmount == 0 ==> r == Err(TargetNotPositive)
    ensures title != [] && description != [] && targetAmount > 0 && duration == 0 ==>
              r == Err(DurationNotPositive)
    ensures r.Ok? ==>
              && r.value.id == |s.campaigns|
              && |r.value.state.campaigns| == |s.campaigns| + 1
              && r.value.state.campaigns[..|s.campaigns|] == s.campaigns
              && Fresh(r.value.state.campaigns[r.value.id], caller, title, description,
                       targetAmount, now + duration)
              && r.value.state.balance == s.balance
              && r.value.event == CampaignCreated(r.value.id, caller, title, targetAmount, now + duration)
    ensures Valid(s) && r.Ok? ==> Valid(r.value.state)
  {
    if title == [] then Err(TitleRequired)
    else if description == [] then Err(DescriptionRequired)
    else if targetAmount == 0 then Err(TargetNotPositive)
    else if duration == 0 then Err(DurationNotPositive)
    else
      var id := |s.campaigns|;
      var c := Campaign(caller, title, description, targetAmount, now + duration,
                        true, 0, false, false, [], map[], 0);
      assert (s.campaigns + [c])[..id] == s.campaigns;
      Ok(Created(State(s.campaigns + [c], s.balance), id,
                 CampaignCreated(id, caller, title, targetAmount, now + duration)))
  }

  datatype BasicInfo = BasicInfo(creator: Address, title: string, description: string,
                                 targetAmount: Wei, deadline: nat, active: bool, currentAmount: Wei)

  /** `getCampaignBasicInfo(id)`. */
  function GetCampaignBasicInfo(s: State, id: nat): (r: Result<BasicInfo, Error>)
    ensures r.Ok? <==> id < |s.campaigns|
    ensures r.Err? ==> r.error == NotFound
    ensures r.Ok? ==> (var c := s.campaigns[id];
                       r.value == BasicInfo(c.creator, c.title, c.description, c.targetAmount,
                                            c.deadline, c.active, c.currentAmount))
  {
    if id >= |s.campaigns| then Err(NotFound)
    else
      var c := s.campaigns[id];
      Ok(BasicInfo(c.creator, c.title, c.description, c.targetAmount, c.deadline, c.active, c.currentAmount))
  }

  /** The ids `0 .. n-1`, in order. */
  function IdsBelow(n: nat): (r: seq<nat>)
    ensures |r| == n
    ensures forall k :: 0 <= k < n ==> r[k] == k
  {
    if n == 0 then [] else IdsBelow(n - 1) + [n - 1]
  }

  /** `getAllCampaigns()`: every id ever assigned, in creation order. */
  function GetAllCampaigns(s: State): (r: seq<nat>)
    ensures |r| == |s.campaigns|
    ensures forall k :: 0 <= k < |r| ==> r[k] == k
  {
    IdsBelow(|s.campaigns|)
  }

  /** `getTotalCampaigns()`. */
  function GetTotalCampaigns(s: State): (r: nat)
    ensures r == |GetAllCampaigns(s)|
  {
    |s.campaigns|
  }

  /** The ids below `n` whose stored state is Active, in increasing order. */
  function ActiveIdsBelow(cs: seq<Campaign>, n: nat): (r: seq<nat>)
    requires n <= |cs|
    ensures forall k :: 0 <= k < |r| ==> r[k] < n && cs[r[k]].active
    ensures forall id :: 0 <= id < n && cs[id].active ==> id in r
    ensures forall k, l :: 0 <= k < l < |r| ==> r[k] < r[l]
  {
    if n == 0 then []
    else
      var rest := ActiveIdsBelow(cs, n - 1);
      if cs[n - 1].active then rest + [n - 1] else rest
  }

  /** `getActiveCampaigns()`: filtered by the stored flag only, not by deadline
      or target. */
  function GetActiveCampaigns(s: State): (r: seq<nat>)
    ensures forall id: nat :: id in r <==> id < |s.campaigns| && s.campaigns[id].active
    ensures forall k, l :: 0 <= k < l < |r| ==> r[k] < r[l]
  {
    ActiveIdsBelow(s.campaigns, |s.campaigns|)
  }

  /** `endCampaign(id)` sent by `caller`: the one-way Active -> Ended step. */
  function EndCampaign(s: State, caller: Address, id: nat): (r: Result<State, Error>)
    ensures r.Ok? <==> id < |s.campaigns| && caller == s.campaigns[id].creator && s.campaigns[id].active
    ensures id >= |s.campaigns| ==> r == Err(NotFound)
    ensures id < |s.campaigns| && caller != s.campaigns[id].creator ==> r == Err(NotCreator)
    ensures id < |s.campaigns| && caller == s.campaigns[id].creator && !s.campaigns[id].active ==>
              r == Err(AlreadyEnded)
    ensures r.Ok? ==>
              && |r.value.campaigns| == |s.campaigns|
              && !r.value.campaigns[id].active
              && r.value.campaigns[id].(active := true) == s.campaigns[id]
              && (forall j :: 0 <= j < |s.campaigns| && j != id ==> r.value.campaigns[j] == s.campaigns[j])
              && r.value.balance == s.balance
    ensures Valid(s) && r.Ok? ==> Valid(r.value)
  {
    if id >= |s.campaigns| then Err(NotFound)
    else
      var c := s.campaigns[id];
      if !Permits(CreatorOnly, c, caller) then Err(NotCreator)
      else if !c.active then Err(AlreadyEnded)
      else
        var c' := c.(active := false);
        TotalHeldUpdate(s.campaigns, id, c');
        Ok(s.(campaigns := s.campaigns[id := c']))
  }

  // -------------------------------------------------------------------- ledger

  /** The donor's encrypted contributions so far, empty before the first one. */
  function PartsOf(c: Campaign, donor: Address): seq<Sealed> {
    if donor in c.donations then c.donations[donor] else []
  }

  /** One accepted donation applied to a campaign record: the public balance
      grows by the attached value, the donor's and the grand encrypted totals
      each gain the sealed amount, and a first-time donor is counted once. */
  function Credit(c: Campaign, donor: Address, amount: Sealed, value: Wei): (c': Campaign)
    ensures c'.currentAmount == c.currentAmount + value
    ensures c'.donations.Keys == c.donations.Keys + {donor}
    ensures c'.donorsCount == c.donorsCount + (if donor in c.donations then 0 else 1)
    ensures c'.donations[donor] == PartsOf(c, donor) + [amount]
    ensures forall d :: d in c.donations && d != donor ==> c'.donations[d] == c.donations[d]
    ensures c'.raised == c.raised + [amount] && c'.initialized
    ensures && c'.creator == c.creator && c'.title == c.title && c'.description == c.description
            && c'.targetAmount == c.targetAmount && c'.deadline == c.deadline
            && c'.active == c.active && c'.withdrawn == c.withdrawn
  {
    c.(currentAmount := c.currentAmount + value,
       donations := c.donations[donor := PartsOf(c, donor) + [amount]],
       donorsCount := if donor in c.donations then c.donorsCount else c.donorsCount + 1,
       raised := c.raised + [amount],
       initialized := true)
  }

  lemma CreditKeepsValid(c: Campaign, donor: Address, amount: Sealed, value: Wei)
    ensures CampaignValid(c) ==> CampaignValid(Credit(c, donor, amount, value))
  {
    var c' := Credit(c, donor, amount, value);
    if donor in c.donations {
      assert c'.donations.Keys == c.donations.Keys;
    } else {
      assert |c.donations.Keys + {donor}| == |c.donations.Keys| + 1;
    }
  }

  datatype Donated = Donated(state: State, event: Event)

  /** `donate(id, amount, proof)` sent by `caller` with `value` wei attached;
      `proofAccepted` is the verdict of the external proof verifier. */
  function Donate(s: State, caller: Address, id: nat, amount: Sealed, proofAccepted: bool,
                  value: Wei): (r: Result<Donated, Error>)
    ensures r.Ok? <==> id < |s.campaigns| && s.campaigns[id].active && value >= MinGasValue && proofAccepted
    ensures id >= |s.campaigns| ==> r == Err(NotFound)
    ensures id < |s.campaigns| && !s.campaigns[id].active ==> r == Err(NotActive)
    ensures id < |s.campaigns| && s.campaigns[id].active && value < MinGasValue ==> r == Err(BelowGasMinimum)
    ensures (id < |s.campaigns| && s.campaigns[id].active && value >= MinGasValue && !proofAccepted) ==>
              r == Err(ProofRejected)
    ensures r.Ok? ==> (&& r.value.state.campaigns == s.campaigns[id := Credit(s.campaigns[id], caller, amount, value)]
                       && r.value.state.balance == s.balance + value
                       && r.value.event == DonationMade(id, caller))
    ensures Valid(s) && r.Ok? ==> Valid(r.value.state)
  {
    if id >= |s.campaigns| then Err(NotFound)
    else
      var c := s.campaigns[id];
      if !c.active then Err(NotActive)
      else if value < MinGasValue then Err(BelowGasMinimum)
      else if !proofAccepted then Err(ProofRejected)
      else
        var c' := Credit(c, caller, amount, value);
        CreditKeepsValid(c, caller, amount, value);
        TotalHeldUpdate(s.campaigns, id, c');
        Ok(Donated(State(s.campaigns[id := c'], s.balance + value), DonationMade(id, caller)))
  }

  /** `getDonorsCount(id)`: the number of distinct donors. */
  function GetDonorsCount(s: State, id: nat): (r: Result<nat, Error>)
    ensures r.Ok? <==> id < |s.campaigns|
    ensures r.Err? ==> r.error == NotFound
    ensures Valid(s) && r.Ok? ==> r.value == |s.campaigns[id].donations.Keys|
  {
    if id >= |s.campaigns| then Err(NotFound) else Ok(s.campaigns[id].donorsCount)
  }

  /** `isCampaignInitialized(id)`: whether encrypted state exists yet. */
  function IsCampaignInitialized(s: State, id: nat): (r: Result<bool, Error>)
    ensures r.Ok? <==> id < |s.campaigns|
    ensures r.Err? ==> r.error == NotFound
    ensures Valid(s) && r.Ok? ==> (r.value <==> s.campaigns[id].donations != map[])
  {
    if id >= |s.campaigns| then Err(NotFound) else Ok(s.campaigns[id].initialized)
  }

  /** `getDonationAmount(id, donor)` sent by `caller`. */
  function GetDonationAmount(s: State, caller: Address, id: nat, donor: Address): (r: Result<Encrypted, Error>)
    ensures r.Ok? <==> id < |s.campaigns| && (caller == donor || caller == s.campaigns[id].creator)
    ensures id >= |s.campaigns| ==> r == Err(NotFound)
    ensures id < |s.campaigns| && caller != donor && caller != s.campaigns[id].creator ==> r == Err(NotAuthorized)
    ensures r.Ok? && donor !in s.campaigns[id].donations ==> r.value == Unset
    ensures r.Ok? && Valid(s) && donor in s.campaigns[id].donations ==>
              r.value.Sum? && r.value.parts == s.campaigns[id].donations[donor] && r.value.parts != []
  {
    if id >= |s.campaigns| then Err(NotFound)
    else
      var c := s.campaigns[id];
      if !Permits(DonorOrCreator(donor), c, caller) then Err(NotAuthorized)
      else if donor in c.donations then Ok(Sum(c.donations[donor]))
      else Ok(Unset)
  }

  /** `getEncryptedTotalRaised(id)` sent by `caller`. */
  function GetEncryptedTotalRaised(s: State, caller: Address, id: nat): (r: Result<Encrypted, Error>)
    ensures r.Ok? <==> id < |s.campaigns| && caller == s.campaigns[id].creator
    ensures id >= |s.campaigns| ==> r == Err(NotFound)
    ensures id < |s.campaigns| && caller != s.campaigns[id].creator ==> r == Err(CreatorOnlyView)
    ensures r.Ok? && Valid(s) ==> (r.value == Unset <==> !s.campaigns[id].initialized)
  {
    if id >= |s.campaigns| then Err(NotFound)
    else
      var c := s.campaigns[id];
      if !Permits(CreatorOnly, c, caller) then Err(CreatorOnlyView)
      else if c.raised == [] then Ok(Unset)
      else Ok(Sum(c.raised))
  }

  /** `getCampaignBalance(id)`: public, no access rule. */
  function GetCampaignBalance(s: State, id: nat): (r: Result<Wei, Error>)
    ensures r.Ok? <==> id < |s.campaigns|
    ensures r.Err? ==> r.error == NotFound
    ensures r.Ok? ==> r.value == s.campaigns[id].currentAmount
  {
    if id >= |s.campaigns| then Err(NotFound) else Ok(s.campaigns[id].currentAmount)
  }

  function Min(a: nat, b: nat): nat {
    if a <= b then a else b
  }

  /** Whole percent of the target reached, capped at 100 and rounded down. */
  function Percentage(current: Wei, target: Wei): (p: nat)
    requires target > 0
    ensures p <= 100
    ensures p == 100 <==> current >= target
    ensures current == 0 ==> p == 0
    ensures p * target <= Min(current, target) * 100 < (p + 1) * target
  {
    PercentageBounds(current, target);
    Min(current, target) * 100 / target
  }

  lemma MulLe(a: int, b: int, c: nat)
    requires a <= b
    ensures a * c <= b * c
  {
  }

  lemma PercentageBounds(current: Wei, target: Wei)
    requires target > 0
    ensures var p := Min(current, target) * 100 / target;
            && p * target <= Min(current, target) * 100 < (p + 1) * target
            && p <= 100
            && (p == 100 <==> current >= target)
  {
    var m := Min(current, target) * 100;
    var p := m / target;
    assert m == p * target + m % target;
    assert (p + 1) * target == p * target + target;
    assert m <= 100 * target;
    assert p <= 100 by {
      if p > 100 { MulLe(101, p, target); }
    }
    if current < target {
      assert p < 100 by {
        if p >= 100 { MulLe(100, p, target); }
      }
    } else {
      assert p >= 100 by {
        if p < 100 { MulLe(p + 1, 100, target); }
      }
    }
  }

  /** `getProgressPercentage(id)`. */
  function GetProgressPercentage(s: State, id: nat): (r: Result<nat, Error>)
    requires Valid(s)
    ensures r.Ok? <==> id < |s.campaigns|
    ensures r.Err? ==> r.error == NotFound
    ensures r.Ok? ==> r.value <= 100
    ensures r.Ok? ==> (r.value == 100 <==> s.campaigns[id].currentAmount >= s.campaigns[id].targetAmount)
    ensures r.Ok? && s.campaigns[id].currentAmount == 0 ==> r.value == 0
    ensures r.Ok? ==> r.value == Percentage(s.campaigns[id].currentAmount, s.campaigns[id].targetAmount)
  {
    if id >= |s.campaigns| then Err(NotFound)
    else Ok(Percentage(s.campaigns[id].currentAmount, s.campaigns[id].targetAmount))
  }

  datatype Withdrawal = Withdrawal(state: State, payee: Address, amount: Wei)

  /** `withdrawFunds(id)` sent by `caller`: the whole balance, once, to the
      creator, after the campaign ended. `transferAccepted` is whether the
      creator's account takes the payment; the flag and the transfer commit
      together or, when the transfer fails, not at all. */
  function WithdrawFunds(s: State, caller: Address, id: nat, transferAccepted: bool): (r: Result<Withdrawal, Error>)
    ensures id >= |s.campaigns| ==> r == Err(NotFound)
    ensures id < |s.campaigns| && caller != s.campaigns[id].creator ==> r == Err(NotCreator)
    ensures id < |s.campaigns| && caller == s.campaigns[id].creator && s.campaigns[id].active ==>
              r == Err(StillActive)
    ensures (id < |s.campaigns| && caller == s.campaigns[id].creator && !s.campaigns[id].active
             && s.campaigns[id].withdrawn) ==> r == Err(AlreadyWithdrawn)
    ensures (id < |s.campaigns| && caller == s.campaigns[id].creator && !s.campaigns[id].active
             && !s.campaigns[id].withdrawn && !transferAccepted) ==> r == Err(TransferFailed)
    ensures Valid(s) ==> (r.Ok? <==> id < |s.campaigns| && caller == s.campaigns[id].creator
                                     && !s.campaigns[id].active && !s.campaigns[id].withdrawn
                                     && transferAccepted)
    ensures r.Ok? ==>
              && |r.value.state.campaigns| == |s.campaigns|
              && !s.campaigns[id].withdrawn
              && r.value.state.campaigns[id] == s.campaigns[id].(withdrawn := true)
              && (forall j :: 0 <= j < |s.campaigns| && j != id ==> r.value.state.campaigns[j] == s.campaigns[j])
              && r.value.payee == s.campaigns[id].creator
              && r.value.amount == s.campaigns[id].currentAmount
              && r.value.state.balance + r.value.amount == s.balance
    ensures Valid(s) && r.Ok? ==> Valid(r.value.state)
  {
    if id >= |s.campaigns| then Err(NotFound)
    else
      var c := s.campaigns[id];
      if !Permits(CreatorOnly, c, caller) then Err(NotCreator)
      else if c.active then Err(StillActive)
      else if c.withdrawn then Err(AlreadyWithdrawn)
      else if !transferAccepted || s.balance < c.currentAmount then Err(TransferFailed)
      else
        var c' := c.(withdrawn := true);
        TotalHeldUpdate(s.campaigns, id, c');
        Ok(Withdrawal(State(s.campaigns[id := c'], s.balance - c.currentAmount), c.creator, c.currentAmount))
  }

  /** Every error with a known revert string has its own string. */
  lemma ReasonsDistinct(a: Error, b: Error)
    ensures Reason(a).Some? && Reason(a) == Reason(b) ==> a == b
  {
  }
}

=== FILE: ledger_runs.dfy ===
/** Arbitrary sequences of transactions against the ledger, and what holds
    across all of them: the invariant, conservation of ether, a single
    withdrawal per campaign, sequential ids, exact funding totals, distinct
    donor counting and the one-way lifecycle. A reverted transaction leaves
    the state as it was and records nothing. */
module LedgerRuns {
  import opened Results
  import opened Ledger

  /** One transaction sent to the contract. */
  datatype Action =
    | Create(caller: Address, title: string, description: string, targetAmount: Wei, duration: nat, now: nat)
    | End(caller: Address, id: nat)
    | Give(caller: Address, id: nat, amount: Sealed, proofAccepted: bool, value: Wei)
    | Withdraw(caller: Address, id: nat, transferAccepted: bool)

  /** What a committed transaction did, as an outside observer accounts it. */
  datatype Effect =
    | Opened(id: nat)
    | Closed(id: nat)
    | Funded(id: nat, donor: Address, value: Wei)
    | PaidOut(id: nat, payee: Address, amount: Wei)

  datatype Committed = Committed(state: State, effect: Effect)

  // ------------------------------------------------------- per-id observations

  function AmountOf(s: State, id: nat): Wei {
    if id < |s.campaigns| then s.campaigns[id].currentAmount else 0
  }

  function DonorsOf(s: State, id: nat): set<Address> {
    if id < |s.campaigns| then s.campaigns[id].donations.Keys else {}
  }

  function WithdrawnFlag(s: State, id: nat): nat {
    if id < |s.campaigns| && s.campaigns[id].withdrawn then 1 else 0
  }

  // ----------------------------------------------------- per-effect accounting

  function Received(e: Effect): Wei {
    if e.Funded? then e.value else 0
  }

  function Paid(e: Effect): Wei {
    if e.PaidOut? then e.amount else 0
  }

  function FundedBy(e: Effect, id: nat): Wei {
    if e.Funded? && e.id == id then e.value else 0
  }

  function DonorBy(e: Effect, id: nat): set<Address> {
    if e.Funded? && e.id == id then {e.donor} else {}
  }

  function WithdrawalBy(e: Effect, id: nat): nat {
    if e.PaidOut? && e.id == id then 1 else 0
  }

  /** `t` is a later version of campaign `c`: identity and terms unchanged,
      Ended never reverts to Active, withdrawal never undone, the balance and
      the donor set only grow. */
  predicate Succeeds(c: Campaign, t: Campaign) {
    && t.creator == c.creator && t.title == c.title && t.description == c.description
    && t.targetAmount == c.targetAmount && t.deadline == c.deadline
    && (t.active ==> c.active)
    && (c.withdrawn ==> t.withdrawn)
    && c.currentAmount <= t.currentAmount
    && c.donations.Keys <= t.donations.Keys
  }

  /** `t` is a later state of `s`: no campaign lost, each one a later version. */
  predicate Extends(s: State, t: State) {
    && |s.campaigns| <= |t.campaigns|
    && forall id :: 0 <= id < |s.campaigns| ==> Succeeds(s.campaigns[id], t.campaigns[id])
  }

  lemma ExtendsTransitive(s: State, t: State, u: State)
    requires Extends(s, t) && Extends(t, u)
    ensures Extends(s, u)
  {
    forall id | 0 <= id < |s.campaigns|
      ensures Succeeds(s.campaigns[id], u.campaigns[id])
    {
      assert Succeeds(t.campaigns[id], u.campaigns[id]);
    }
  }

  /** One transaction: the entry point it names, with its effect if it commits. */
  function Step(s: State, a: Action): (r: Result<Committed, Error>)
    ensures Valid(s) && r.Ok? ==> Valid(r.value.state)
    ensures r.Ok? ==> r.value.state.balance + Paid(r.value.effect) == s.balance + Received(r.value.effect)
    ensures r.Ok? ==> Extends(s, r.value.state)
    ensures r.Ok? ==> |r.value.state.campaigns| == |s.campaigns| + (if r.value.effect.Opened? then 1 else 0)
    ensures r.Ok? && r.value.effect.Opened? ==> r.value.effect.id == |s.campaigns|
  {
    match a
    case Create(caller, title, description, targetAmount, duration, now) =>
      var c :- CreateCampaign(s, caller, title, description, targetAmount, duration, now);
      Ok(Committed(c.state, Opened(c.id)))
    case End(caller, id) =>
      var t :- EndCampaign(s, caller, id);
      Ok(Committed(t, Closed(id)))
    case Give(caller, id, amount, proofAccepted, value) =>
      var d :- Donate(s, caller, id, amount, proofAccepted, value);
      Ok(Committed(d.state, Funded(id, caller, value)))
    case Withdraw(caller, id, transferAccepted) =>
      var w :- WithdrawFunds(s, caller, id, transferAccepted);
      Ok(Committed(w.state, PaidOut(id, w.payee, w.amount)))
  }

  /** The per-campaign bookkeeping of one committed transaction. */
  lemma StepBookkeeping(s: State, a: Action, id: nat)
    requires Step(s, a).Ok?
    ensures var c := Step(s, a).value;
            && AmountOf(c.state, id) == AmountOf(s, id) + FundedBy(c.effect, id)
            && DonorsOf(c.state, id) == DonorsOf(s, id) + DonorBy(c.effect, id)
            && WithdrawnFlag(c.state, id) == WithdrawnFlag(s, id) + WithdrawalBy(c.effect, id)
  {
  }

  // --------------------------------------------------------------------- runs

  datatype Outcome = Outcome(state: State, trace: seq<Effect>)

  /** Sends `actions` in order; reverted ones leave no trace. */
  function Run(s: State, actions: seq<Action>): Outcome
    decreases |actions|
  {
    if actions == [] then Outcome(s, [])
    else
      match Step(s, actions[0])
      case Ok(c) =>
        var o := Run(c.state, actions[1..]);
        Outcome(o.state, [c.effect] + o.trace)
      case Err(_) => Run(s, actions[1..])
  }

  function TotalReceived(t: seq<Effect>): Wei {
    if t == [] then 0 else Received(t[0]) + TotalReceived(t[1..])
  }

  function TotalPaid(t: seq<Effect>): Wei {
    if t == [] then 0 else Paid(t[0]) + TotalPaid(t[1..])
  }

  /** Sum of the values attached to accepted donations to `id`. */
  function FundedTo(t: seq<Effect>, id: nat): Wei {
    if t == [] then 0 else FundedBy(t[0], id) + FundedTo(t[1..], id)
  }

  /** Everyone who made an accepted donation to `id`. */
  function DonorsIn(t: seq<Effect>, id: nat): set<Address> {
    if t == [] then {} else DonorBy(t[0], id) + DonorsIn(t[1..], id)
  }

  /** Number of committed withdrawals from `id`. */
  function Withdrawals(t: seq<Effect>, id: nat): nat {
    if t == [] then 0 else WithdrawalBy(t[0], id) + Withdrawals(t[1..], id)
  }

  /** The ids handed out by committed creations, in order. */
  function OpenedIds(t: seq<Effect>): seq<nat> {
    if t == [] then [] else (if t[0].Opened? then [t[0].id] else []) + OpenedIds(t[1..])
  }

  /** Every reachable state satisfies the ledger invariant. */
  lemma {:induction false} RunKeepsValid(s: State, actions: seq<Action>)
    requires Valid(s)
    ensures Valid(Run(s, actions).state)
    decreases |actions|
  {
    if actions != [] {
      match Step(s, actions[0])
      case Ok(c) => RunKeepsValid(c.state, actions[1..]);
      case Err(_) => RunKeepsValid(s, actions[1..]);
    }
  }

  /** Ether is conserved: what the contract holds at the end plus what it paid
      out equals what it held at the start plus what donors attached. */
  lemma {:induction false} RunConserves(s: State, actions: seq<Action>)
    ensures var o := Run(s, actions);
            o.state.balance + TotalPaid(o.trace) == s.balance + TotalReceived(o.trace)
    decreases |actions|
  {
    if actions != [] {
      match Step(s, actions[0])
      case Ok(c) => RunConserves(c.state, actions[1..]);
      case Err(_) => RunConserves(s, actions[1..]);
    }
  }

  /** A campaign's public balance grows by exactly the attached values of its
      accepted donations, and its donor set by exactly their senders. */
  lemma {:induction false} RunFunding(s: State, actions: seq<Action>, id: nat)
    ensures var o := Run(s, actions);
            && AmountOf(o.state, id) == AmountOf(s, id) + FundedTo(o.trace, id)
            && DonorsOf(o.state, id) == DonorsOf(s, id) + DonorsIn(o.trace, id)
    decreases |actions|
  {
    if actions != [] {
      match Step(s, actions[0])
      case Ok(c) =>
        StepBookkeeping(s, actions[0], id);
        RunFunding(c.state, actions[1..], id);
      case Err(_) => RunFunding(s, actions[1..], id);
    }
  }

  /** Each withdrawal of `id` in the trace is matched by the flag going from
      unset to set; the flag never resets. */
  lemma {:induction false} RunWithdrawals(s: State, actions: seq<Action>, id: nat)
    ensures var o := Run(s, actions);
            Withdrawals(o.trace, id) + WithdrawnFlag(s, id) == WithdrawnFlag(o.state, id)
    decreases |actions|
  {
    if actions != [] {
      match Step(s, actions[0])
      case Ok(c) =>
        StepBookkeeping(s, actions[0], id);
        RunWithdrawals(c.state, actions[1..], id);
      case Err(_) => RunWithdrawals(s, actions[1..], id);
    }
  }

  /** Funds leave a campaign at most once, whatever is sent and retried. */
  lemma SingleWithdrawal(s: State, actions: seq<Action>, id: nat)
    ensures Withdrawals(Run(s, actions).trace, id) <= 1
    ensures WithdrawnFlag(s, id) == 1 ==> Withdrawals(Run(s, actions).trace, id) == 0
  {
    RunWithdrawals(s, actions, id);
  }

  /** Campaigns are never lost or altered in their terms; Ended is absorbing. */
  lemma {:induction false} RunExtends(s: State, actions: seq<Action>)
    ensures Extends(s, Run(s, actions).state)
    decreases |actions|
  {
    if actions != [] {
      match Step(s, actions[0])
      case Ok(c) =>
        RunExtends(c.state, actions[1..]);
        ExtendsTransitive(s, c.state, Run(c.state, actions[1..]).state);
      case Err(_) => RunExtends(s, actions[1..]);
    }
  }

  /** Ids are handed out consecutively from the current count, in order. */
  lemma {:induction false} RunOpensInOrder(s: State, actions: seq<Action>)
    ensures var o := Run(s, actions);
            && |o.state.campaigns| == |s.campaigns| + |OpenedIds(o.trace)|
            && forall k :: 0 <= k < |OpenedIds(o.trace)| ==> OpenedIds(o.trace)[k] == |s.campaigns| + k
    decreases |actions|
  {
    if actions != [] {
      match Step(s, actions[0])
      case Ok(c) =>
        RunOpensInOrder(c.state, actions[1..]);
        var rest := Run(c.state, actions[1..]);
        assert OpenedIds([c.effect] + rest.trace) ==
               (if c.effect.Opened? then [c.effect.id] else []) + OpenedIds(rest.trace) by {
          assert ([c.effect] + rest.trace)[1..] == rest.trace;
        }
      case Err(_) => RunOpensInOrder(s, actions[1..]);
    }
  }

  /** From a fresh deployment the listing is exactly the ids created, in
      order, and the contract holds what was attached minus what was paid. */
  lemma GenesisListing(actions: seq<Action>)
    ensures var o := Run(Genesis, actions);
            && GetAllCampaigns(o.state) == OpenedIds(o.trace)
            && GetTotalCampaigns(o.state) == |OpenedIds(o.trace)|
            && o.state.balance + TotalPaid(o.trace) == TotalReceived(o.trace)
  {
    var o := Run(Genesis, actions);
    RunConserves(Genesis, actions);
    RunOpensInOrder(Genesis, actions);
    assert GetAllCampaigns(o.state) == OpenedIds(o.trace);
  }

  /** From a fresh deployment, each campaign's public balance is the sum of
      what was attached to it, its donor count the number of distinct donors,
      it is initialised exactly when someone donated, and it paid out at most
      once. */
  lemma GenesisCampaign(actions: seq<Action>, id: nat)
    requires id < |Run(Genesis, actions).state.campaigns|
    ensures var o := Run(Genesis, actions);
            && o.state.campaigns[id].currentAmount == FundedTo(o.trace, id)
            && GetDonorsCount(o.state, id) == Ok(|DonorsIn(o.trace, id)|)
            && IsCampaignInitialized(o.state, id) == Ok(DonorsIn(o.trace, id) != {})
            && Withdrawals(o.trace, id) <= 1
  {
    var o := Run(Genesis, actions);
    RunKeepsValid(Genesis, actions);
    RunFunding(Genesis, actions, id);
    SingleWithdrawal(Genesis, actions, id);
    var c := o.state.campaigns[id];
    assert c.donations.Keys == DonorsIn(o.trace, id);
    assert CampaignValid(c);
    assert c.donations != map[] <==> c.donations.Keys != {};
  }

  /** An ended campaign stays ended, and no donation to it ever commits again. */
  lemma {:induction false} EndedIsFinal(s: State, actions: seq<Action>, id: nat)
    requires id < |s.campaigns| && !s.campaigns[id].active
    ensures var o := Run(s, actions);
            && id < |o.state.campaigns| && !o.state.campaigns[id].active
            && FundedTo(o.trace, id) == 0
            && DonorsIn(o.trace, id) == {}
            && o.state.campaigns[id].currentAmount == s.campaigns[id].currentAmount
    decreases |actions|
  {
    if actions != [] {
      match Step(s, actions[0])
      case Ok(c) =>
        assert FundedBy(c.effect, id) == 0 && DonorBy(c.effect, id) == {};
        StepBookkeeping(s, actions[0], id);
        EndedIsFinal(c.state, actions[1..], id);
      case Err(_) => EndedIsFinal(s, actions[1..], id);
    }
  }
}

=== FILE: results.dfy ===
/** Failure-compatible wrappers shared by the ledger and the client-side model:
    a contract call either commits (`Ok`) or reverts with a reason (`Err`). */
module Results {

  datatype Option<+T> = None | Some(value: T)

  datatype Result<+T, +E> = Ok(value: T) | Err(error: E) {

    predicate IsFailure() {
      Err?
    }

    function PropagateFailure<U>(): Result<U, E>
      requires Err?
    {
      Err(error)
    }

    function Extract(): T
      requires Ok?
    {
      value
    }
  }
}

=== FILE: text.dfy ===
/** The few JavaScript string primitives the client pages rely on:
    `String.prototype.trim`, `toLowerCase` on account addresses and
    `includes` on error messages. */
module Text {

  /** What `parseFloat` (`T = real`) or `parseInt` (`T = int`) produced. */
  datatype Parsed<T> = Value(v: T) | NaN

  /** ECMAScript WhiteSpace and LineTerminator code points: what `trim` strips. */
  predicate IsSpace(c: char) {
    || c == ' ' || c == '\t' || c == '\n' || c == '\r'
    || c == '\U{000B}' || c == '\U{000C}' || c == '\U{00A0}' || c == '\U{FEFF}'
    || c == '\U{1680}' || ('\U{2000}' <= c <= '\U{200A}')
    || c == '\U{2028}' || c == '\U{2029}' || c == '\U{202F}' || c == '\U{205F}'
    || c == '\U{3000}'
  }

  /** Every character of `s` is whitespace (the empty string included). */
  predicate Blank(s: string) {
    forall j :: 0 <= j < |s| ==> IsSpace(s[j])
  }

  /** Drops the leading whitespace: the longest whitespace prefix goes, the rest stays. */
  function TrimStart(s: string): (r: string)
    ensures |r| <= |s| && r == s[|s| - |r|..]
    ensures forall j :: 0 <= j < |s| - |r| ==> IsSpace(s[j])
    ensures r == [] || !IsSpace(r[0])
    decreases |s|
  {
    if |s| > 0 && IsSpace(s[0]) then TrimStart(s[1..]) else s
  }

  /** Drops the trailing whitespace. */
  function TrimEnd(s: string): (r: string)
    ensures |r| <= |s| && r == s[..|r|]
    ensures forall j :: |r| <= j < |s| ==> IsSpace(s[j])
    ensures r == [] || !IsSpace(r[|r| - 1])
    decreases |s|
  {
    if |s| > 0 && IsSpace(s[|s| - 1]) then TrimEnd(s[..|s| - 1]) else s
  }

  /** `s.trim()`: `s` without its outer whitespace, empty exactly when `s`
      is blank. */
  function Trim(s: string): (r: string)
    ensures |r| <= |s|
    ensures exists a :: 0 <= a <= |s| - |r| && r == s[a..a + |r|] && Blank(s[..a]) && Blank(s[a + |r|..])
    ensures r == [] <==> Blank(s)
    ensures r != [] ==> !IsSpace(r[0]) && !IsSpace(r[|r| - 1])
  {
    var u := TrimStart(s);
    var r := TrimEnd(u);
    var a := |s| - |u|;
    PieceOfSuffix(s, u, r);
    BlankHead(s, a);
    BlankBeyond(s, u, r);
    assert 0 <= a <= |s| - |r| && r == s[a..a + |r|] && Blank(s[..a]) && Blank(s[a + |r|..]);
    r
  }

  /** A prefix of a suffix of `s` is a slice of `s`. */
  lemma PieceOfSuffix(s: string, u: string, r: string)
    requires |u| <= |s| && u == s[|s| - |u|..]
    requires |r| <= |u| && r == u[..|r|]
    ensures r == s[|s| - |u|..|s| - |u| + |r|]
  {
    var a := |s| - |u|;
    forall j | 0 <= j < |r| ensures r[j] == s[a + j] {
      assert u[j] == s[a + j];
    }
  }

  lemma BlankHead(s: string, a: nat)
    requires a <= |s| && forall j :: 0 <= j < a ==> IsSpace(s[j])
    ensures Blank(s[..a])
  {
    var head := s[..a];
    forall j | 0 <= j < |head| ensures IsSpace(head[j]) {
      assert head[j] == s[j];
    }
  }

  lemma BlankBeyond(s: string, u: string, r: string)
    requires |u| <= |s| && u == s[|s| - |u|..]
    requires |r| <= |u| && forall j :: |r| <= j < |u| ==> IsSpace(u[j])
    ensures Blank(s[|s| - |u| + |r|..])
  {
    var tail := s[|s| - |u| + |r|..];
    forall j | 0 <= j < |tail| ensures IsSpace(tail[j]) {
      assert tail[j] == u[|r| + j];
    }
  }

  /** ASCII upper case to lower case; every other character is left alone. */
  function LowerChar(c: char): (l: char)
    ensures 'A' <= c <= 'Z' ==> l as int == c as int + 32
    ensures !('A' <= c <= 'Z') ==> l == c
  {
    if 'A' <= c <= 'Z' then (c as int + 32) as char else c
  }

  /** `s.toLowerCase()` on the ASCII account strings the pages compare. */
  function Lower(s: string): (r: string)
    ensures |r| == |s|
    ensures forall j :: 0 <= j < |s| ==> r[j] == LowerChar(s[j])
  {
    if s == [] then [] else [LowerChar(s[0])] + Lower(s[1..])
  }

  /** `a.toLowerCase() === b.toLowerCase()`. */
  predicate SameIgnoringCase(a: string, b: string) {
    Lower(a) == Lower(b)
  }

  /** Case-insensitive equality is character-wise equality after lowering. */
  lemma SameIgnoringCaseIff(a: string, b: string)
    ensures SameIgnoringCase(a, b) <==>
      |a| == |b| && forall j :: 0 <= j < |a| ==> LowerChar(a[j]) == LowerChar(b[j])
  {
    if |a| == |b| && forall j :: 0 <= j < |a| ==> LowerChar(a[j]) == LowerChar(b[j]) {
      assert forall j :: 0 <= j < |a| ==> Lower(a)[j] == Lower(b)[j];
    }
  }

  /** `t` occurs in `s` starting at position `i`. */
  predicate MatchesAt(s: string, t: string, i: nat) {
    i + |t| <= |s| && s[i..i + |t|] == t
  }

  /** `s.includes(t)`. */
  predicate Includes(s: string, t: string) {
    exists i: nat | i <= |s| :: MatchesAt(s, t, i)
  }

  /** An occurrence of `t` at `i` fixes every character it covers. */
  lemma MatchedChar(s: string, t: string, i: nat, k: nat)
    requires MatchesAt(s, t, i) && k < |t|
    ensures s[i + k] == t[k]
  {
    assert s[i..i + |t|][k] == s[i + k];
  }

  /** If `c` occurs exactly once in `a + [c] + b`, an occurrence of a pattern
      whose `k`-th character is `c` can only start `k` places before it. */
  lemma AnchoredMatch(a: string, c: char, b: string, t: string, k: nat, i: nat)
    requires k < |t| && t[k] == c && c !in a && c !in b
    requires MatchesAt(a + [c] + b, t, i)
    ensures i + k == |a|
  {
    MatchedChar(a + [c] + b, t, i, k);
  }
}

=== FILE: views.dfy ===
/** How the client's decisions line up with the ledger they read: the
    listings the pages load, the "active" filter against the contract's own
    active list, the progress bar against `getProgressPercentage`, the
    client's minimum against the contract's, the id read back after creation,
    and the donation and creation paths the pages open. */
module Views {
  import opened Results
  import Text
  import L = Ledger
  import S = CampaignStatus
  import D = CampaignDetails
  import W = CreateWizard
  import C = ContractClient

  /** Campaign `id` as `getCampaignBasicInfo` hands it to the pages. */
  function ListingOf(s: L.State, id: nat): (c: S.Listing)
    requires id < |s.campaigns|
    ensures L.GetCampaignBasicInfo(s, id).Ok?
    ensures var k := s.campaigns[id];
            c == S.Listing(id, k.creator, k.active, k.deadline, k.targetAmount, k.currentAmount)
  {
    var info := L.GetCampaignBasicInfo(s, id).value;
    S.Listing(id, info.creator, info.active, info.deadline, info.targetAmount, info.currentAmount)
  }

  /** What `loadCampaigns` fetches: one listing per id of `getAllCampaigns`. */
  function Listings(s: L.State): (r: seq<S.Listing>)
    ensures |r| == |L.GetAllCampaigns(s)|
    ensures forall k :: 0 <= k < |r| ==> r[k] == ListingOf(s, L.GetAllCampaigns(s)[k])
  {
    var ids := L.GetAllCampaigns(s);
    seq(|ids|, k requires 0 <= k < |ids| => ListingOf(s, ids[k]))
  }

  /** Every campaign the list page shows under "active" is one the contract
      itself lists as active; the page filters further by clock and target. */
  lemma ActiveFilterWithinLedger(s: L.State, now: nat)
    ensures forall c :: c in S.Visible(Listings(s), "active", now) ==> c.id in L.GetActiveCampaigns(s)
  {
    var cs := Listings(s);
    forall c | c in S.Visible(cs, "active", now) ensures c.id in L.GetActiveCampaigns(s) {
      var k :| 0 <= k < |cs| && cs[k] == c;
      assert L.GetAllCampaigns(s)[k] == k;
    }
  }

  /** The ledger's percentage is the client's progress bar value rounded
      down: both are the amount over the target, capped at 100. */
  lemma PercentageIsFlooredProgress(current: nat, target: nat, id: nat)
    requires target > 0
    ensures var p := L.Percentage(current, target) as real;
            var bar := S.ProgressOf(S.Listing(id, "", true, 0, target, current));
            p <= bar < p + 1.0
  {
    var p := L.Percentage(current, target);
    var m := L.Min(current, target);
    var t, c := target as real, current as real;
    var w := S.WeiPerEther;
    assert (c / w) / (t / w) == c / t;
    var bar := S.MinReal(c / t * 100.0, 100.0);
    assert S.ProgressOf(S.Listing(id, "", true, 0, target, current)) == bar;
    assert bar == (m as real) * 100.0 / t by {
      if current >= target {
        assert c / t * 100.0 >= 100.0 by { RatioAtLeastOne(c, t); }
      }
    }
    RealFloor(m * 100, target, p);
  }

  lemma RatioAtLeastOne(c: real, t: real)
    requires 0.0 < t <= c
    ensures c / t >= 1.0
  {
  }

  /** An integer quotient bracket carries over to the exact real quotient. */
  lemma RealFloor(n: nat, d: nat, p: nat)
    requires d > 0 && p * d <= n < (p + 1) * d
    ensures (p as real) <= (n as real) / (d as real) < (p + 1) as real
  {
    var q := (n as real) / (d as real);
    assert q * (d as real) == n as real;
  }

  /** The client refuses exactly the values the contract would refuse for
      falling short of its minimum. */
  lemma SameMinimum()
    ensures C.MinGasAmount == L.MinGasValue
  {
  }

  /** A value the client hook lets through never meets the contract's gas
      floor: it can fail on the campaign or the proof, never on the amount. */
  lemma SentValueClearsLedgerFloor(s: L.State, caller: L.Address, id: nat, amount: L.Sealed, proofAccepted: bool,
                                   value: Result<int, string>, shown: string, reply: C.Reply<()>)
    requires C.Donate(value, shown, reply).sent.Some?
    ensures L.Donate(s, caller, id, amount, proofAccepted, C.Donate(value, shown, reply).sent.value)
            != Err(L.BelowGasMinimum)
  {
  }

  /** The details page's ether threshold and the hook's wei threshold are
      the same amount. */
  lemma EtherThresholdIsWeiMinimum(ether: real)
    ensures ether >= 0.001 <==> ether * S.WeiPerEther >= C.MinGasAmount as real
  {
  }

  /** A donation the details page offers, with a value at the minimum and a
      proof the contract accepts, goes through on the ledger. */
  lemma OfferedDonationAccepted(s: L.State, id: nat, account: string, now: nat, amount: L.Sealed, value: L.Wei)
    requires id < |s.campaigns|
    requires D.CanDonate(Some(ListingOf(s, id)), Some(account), now)
    requires value >= L.MinGasValue
    ensures L.Donate(s, account, id, amount, true, value).Ok?
  {
  }

  /** The logs of a receipt, as the client parses them. */
  function LogOf(e: L.Event): (log: C.Log)
    ensures e.CampaignCreated? <==> log.CreatedLog?
    ensures e.CampaignCreated? ==> log.campaignId == e.campaignId
  {
    match e
    case CampaignCreated(id, _, _, _, _) => C.CreatedLog(id)
    case DonationMade(_, _) => C.OtherLog
  }

  /** After a creation the ledger commits, the client reads back exactly the
      new id, and the details page it navigates to finds that id listed and
      loads it. */
  lemma CreatedIdRoundTrip(s: L.State, caller: L.Address, title: string, description: string,
                           target: L.Wei, duration: nat, now: nat, param: string)
    requires L.CreateCampaign(s, caller, title, description, target, duration, now).Ok?
    requires param != ""
    ensures var created := L.CreateCampaign(s, caller, title, description, target, duration, now).value;
            var read := C.CreateCampaign(C.Mined([LogOf(created.event)]));
            && read == Ok(created.id)
            && D.LoadGuard(param, Text.Value(read.value), L.GetAllCampaigns(created.state)) == D.Load(created.id)
  {
    var created := L.CreateCampaign(s, caller, title, description, target, duration, now).value;
    assert C.FirstCreated([LogOf(created.event)]) == Some(created.id);
    assert L.GetAllCampaigns(created.state)[created.id] == created.id;
  }

  /** `getDonorsCount` as the pages see it: the number of distinct donors of
      a listed campaign, and 0 for an unknown id, whose revert the hook hides. */
  lemma ClientDonorsCount(s: L.State, id: nat)
    requires L.Valid(s)
    ensures var read := L.GetDonorsCount(s, id);
            C.DonorsCountOrZero(if read.Ok? then Ok(read.value) else Err("Campaign does not exist"))
            == (if id < |s.campaigns| then |s.campaigns[id].donations.Keys| else 0)
  {
  }

  /** A form submitted from the review step, with a readable duration and a
      positive target in wei, passes every check `createCampaign` makes. */
  lemma ReviewedFormIsCreated(r: Result<W.Submission, string>, parseFloat: W.Reader<real>, s: L.State,
                              caller: L.Address, targetWei: L.Wei, now: nat)
    requires W.SoundSubmission(r, parseFloat) && r.value.durationSeconds.Value?
    requires targetWei > 0
    ensures L.CreateCampaign(s, caller, r.value.title, r.value.description, targetWei,
                             r.value.durationSeconds.v, now).Ok?
  {
    assert |r.value.title| >= 5;
  }
}
